=== FILE: README.md ===
# kpis-sensesbit core, modelled in Dafny

This project models the computational core of the kpis-sensesbit service in
Dafny and proves properties of the model.

The main part is the survey statistics pipeline of `stats.py`. Raw answers to
one question are first **cleaned** into a table whose columns depend on the
question type. The table is then **aggregated** into one summary: mean ranking
order, first free-text answer, a count and percentage, or an order histogram
with its weighted sum. Finally a **significance test** is selected for the
question. Each stage chooses its strategy once, at construction. Cleaners and
aggregators are chosen from the question type and from whether the question
has attributes; the test is chosen from the question type and the number of
code samples compared. `execute_cleaner` and `execute_aggregator` raise when
no strategy was chosen, while `execute_test` then silently does nothing.

Around it sit five small self-contained pieces:

- the product KPIs of `ProductoService`: the usage-frequency and percentage KPIs, which report 0 when their denominator is 0; the export, session-duration (both fields `None` without a duration), processing-time and credit reports, which pass the repository's values through with labels and unit conversions; and a fixed five-engine report;
- the hour-bucketed history of the API health check, which keeps at most 10 hours;
- the rewrite of the Postgres URL's driver prefix done in the settings constructor;
- the bearer-token guard of the dashboard endpoints;
- `_store_result`, which files a HubSpot response (or its error) into the BI payload.

Modules, one per component:

| file | module | models |
|---|---|---|
| `wrappers.dfy` | `Wrappers` | `Option` and `Result` |
| `survey_table.dfy` | `SurveyTable` | answer values and their truthiness, answers, the cleaned-table schemas, pipeline errors, counting and mean helpers |
| `histogram.dfy` | `Histogram` | the value → count map of type-4 aggregation and its totals |
| `cleaners.dfy` | `Cleaners` | `select_data_cleaner`, the five cleaners, `execute_cleaner` |
| `aggregators.dfy` | `Aggregators` | `select_aggregator`, the five aggregators, `AggregatedPlaceholder`, `execute_aggregator` |
| `stat_tests.dfy` | `StatTests` | `select_stat_test`, the data shaping of the four tests, `execute_test` |
| `product_kpis.dfy` | `ProductKpis` | the `ProductoService` KPIs |
| `health_history.dfy` | `HealthHistory` | the history update of `_check_once` |
| `postgres_url.dfy` | `PostgresUrl` | the `POSTGRES_URL` normalisation |
| `bearer_auth.dfy` | `BearerAuth` | `verify_bearer_token` |
| `hubspot_store.dfy` | `HubspotStore` | `_store_result` |

How Python behaviour is represented:

- **Exceptions.** Each becomes a `Failure` of `SurveyTable.Error`:
  - the `ValueError` of an unset strategy (stats.py:225 and 395) is `NotSet` with the code's message; the model follows the code, which uses no dedicated configuration-error type;
  - a pandas `KeyError` for a column the cleaned table lacks is `MissingColumn`, because each table constructor fixes its column set;
  - an attribute read on a `None` argument is `MissingArgument`;
  - a division by zero is `ZeroDivision`;
  - `iloc[0]` on an empty column is `EmptyTable`;
  - an order column that `pd.to_numeric` rejects is `NotNumeric`.
- **Bare `except` blocks.** Where a test catches with a bare `except`, the failure becomes a `None` p-value instead.
- **Numerical procedures.** OLS/ANOVA, `ttest_rel` with Holm correction, the chi-square survival function and `friedmanchisquare` are an abstract parameter `pvalue: NumericCall -> Option<real>`. The model states exactly which data each test hands to it.
- **Answer values.** `Value` is a boolean, an integer, a text or `None`, with Python truthiness. In the order column, booleans count as 0 and 1, as `True == 1` makes them do in Python.

## Model

| member | source | states |
|---|---|---|
| `SurveyTable.CountOf` | stats.py:418-419 | the number of rows a column-equals-x mask keeps is the multiplicity of x in the column, never more than the row count |
| `SurveyTable.Truthy` | stats.py:151 | `if answer.value:` is false exactly for `False`, `0`, the empty text and `None` |
| `SurveyTable.Numeric` | stats.py:326-330 | integers and booleans are numbers (`True` as 1, `False` as 0, as Python's `True == 1` makes them in dictionary keys); text and `None` are not |
| `SurveyTable.KeptIndices` | stats.py:418 | a boolean mask keeps the positions, increasing, of exactly the rows satisfying its condition |
| `SurveyTable.Select` | stats.py:168-172 | a filtering loop emits one row per kept input, in input order, built from that input |
| `SurveyTable.FirstIndexOfPrefix` | stats.py:457 | appending values does not move the first occurrence of a value already present, which keeps `unique()`'s order stable |
| `SurveyTable.Unique` | stats.py:457 | `unique()` lists exactly the values of the column, each once, ordered by the position of their first occurrence, starting with the first row's value |
| `SurveyTable.DistinctCount` | stats.py:293 | `nunique()` is the size of the set of column values, at most the row count and positive for a non-empty column |
| `SurveyTable.DistinctLength` | stats.py:293 | a sequence without repetitions has as many distinct values as elements |
| `SurveyTable.KeptIndicesCount` | stats.py:150-158 | a filtering loop keeps as many rows as there are inputs satisfying its condition |
| `SurveyTable.Mean` | stats.py:252 | the mean of an integer column is NaN exactly when the column is empty, and otherwise mean × count equals the sum |
| `SurveyTable.MeanReal` | stats.py:254-256 | the same for a float column |
| `SurveyTable.Percent` | stats.py:296 | `n / d * 100` raises ZeroDivisionError iff d is 0; otherwise p × d = 100 × n, and p lies in [0, 100] when n ≤ d |
| `Cleaners.SelectCleaner` | stats.py:207-218 | types 1, 2 and 4 get their cleaner; type 3 gets the attribute cleaner iff the question has attributes, else the sample cleaner; any other type gets none (each case is an iff) |
| `Cleaners.NewCleanData` | stats.py:198-205 | copies question and attribute id; an explicitly given cleaner wins, otherwise the stored cleaner is exactly the one `SelectCleaner` dispatches, so there is none iff the type is unknown |
| `Cleaners.CleanType1` | stats.py:102-129 | one row per answer in input order, carrying user, placeholder id, placeholder order, placeholder name and code sample |
| `Cleaners.CleanType2` | stats.py:132-144 | one row per answer in input order, copying user, value and code sample |
| `Cleaners.CleanType3Attributes` | stats.py:147-162 | the rows are exactly the truthy answers, in input order, with user, attribute and code sample copied; their number is the number of truthy answers |
| `Cleaners.CleanType3Samples` | stats.py:165-174 | the same for (user, code sample) rows |
| `Cleaners.CleanType4` | stats.py:177-189 | one row per answer in input order; `order` is the answer's value, user and code sample are copied |
| `Cleaners.Clean` | stats.py:102-189 | each strategy yields its own schema; types 1, 2 and 4 keep one row per answer, both type-3 strategies one per truthy answer; every row belongs to a user that answered |
| `Cleaners.ExecuteCleaner` | stats.py:223-227 | raises "data_cleaner not set" iff no cleaner is set; otherwise returns exactly the chosen cleaner's table, which has that cleaner's schema, one row per answer (per truthy answer for type 3), and only users that answered |
| `Cleaners.UnknownTypeCannotBeCleaned` | stats.py:207-227 | a question of unknown type, cleaned with the dispatched cleaner, raises "data_cleaner not set" |
| `Histogram.Build` | stats.py:325-328 | the histogram's keys are the distinct order values and each count is the value's multiplicity, at least 1 |
| `Histogram.Weighted` | stats.py:329-333 | Σ key × count over the given keys, non-negative for non-negative keys and 0 when every count is 0; over the histogram of a column it is the column's sum (`WeightedIsSum`) |
| `Histogram.HistogramPartitions` | stats.py:325-328 | the histogram's counts sum to the number of rows |
| `Histogram.WeightedIsSum` | stats.py:329-333 | Σ value × count over the histogram equals the sum of the order column |
| `Aggregators.SelectAggregator` | stats.py:371-382 | the same decision table as the cleaner dispatch, each case an iff, with no aggregator for unknown types |
| `Aggregators.NewAggregatedAnswer` | stats.py:363-382 | starts with no placeholders and every result field unset; an explicitly given aggregator wins, otherwise the stored aggregator is exactly the one `SelectAggregator` dispatches, none iff the type is unknown; it fails with a missing-argument error (the AttributeError at `question.type`) iff both the question and the aggregator are `None` |
| `Aggregators.ParseAll` | stats.py:254-258 | `astype(float)` succeeds iff every name parses, and then yields the parsed names in order |
| `Aggregators.OrderValues` | stats.py:330 | `pd.to_numeric` of the order column succeeds iff every order is a number or boolean, and yields them in order |
| `Aggregators.SummarisePlaceholder` | stats.py:410-420 | copies id, order and name; n is the number of rows with the placeholder's id; percent × rows = 100 × n, within [0, 100]; an empty table raises ZeroDivisionError |
| `Aggregators.SummarisePlaceholders` | stats.py:259-266 | one summary per placeholder of the attribute, in order, each copying its placeholder's id, order and name, with n the rows naming it and percent × rows = 100 × n; it fails iff there is a placeholder and the table is empty |
| `Aggregators.RankingMeans` | stats.py:252-258 | mean order × rows = Σ placeholder order (NaN iff no rows); the mean numeric name is unset iff some name does not parse, and otherwise mean × rows = Σ parsed names (NaN iff no rows) |
| `Aggregators.AggregateType1` | stats.py:252-266 | fails on a table without ranking columns, on a missing attribute, and (iff) with ZeroDivisionError on an empty table when the attribute has placeholders; otherwise it sets both means as `RankingMeans` states and appends, after the existing ones, one summary per placeholder copying its id, order and name with its count and percentage; no other field changes |
| `Aggregators.AggregateType2` | stats.py:279-280 | sets text and user from the first row and nothing else; fails iff the table is empty, and on a table without a `value` column |
| `Aggregators.AggregateType3Attributes` | stats.py:293-296 | n is the number of rows naming the attribute (≤ rows); percent × distinct users = 100 × n; an empty table raises ZeroDivisionError; only n and percent change |
| `Aggregators.AggregateType3Samples` | stats.py:309-312 | the same against the code sample's id; a missing code sample raises |
| `Aggregators.AggregateType4` | stats.py:325-333 | the order histogram has the distinct order values as keys, each with its multiplicity (≥ 1); a non-numeric order raises; only order and weighted order change |
| `Aggregators.Type4Totals` | stats.py:325-333 | the histogram's counts sum to the row count and the weighted order is the sum of all order values |
| `Aggregators.ExecuteAggregator` | stats.py:394-399 | raises "aggregator not set" when none is set, otherwise runs the chosen aggregator and keeps it |
| `Aggregators.DispatchesAgree` | stats.py:371-382 | each question gets the aggregator of the same kind as its cleaner, and has one iff it has the other |
| `Aggregators.PipelineColumnsMatch` | stats.py:243-333 | cleaning and aggregating a question of a known type with the dispatched strategies never reads a missing column and never hits an unset strategy |
| `StatTests.SelectStatTest` | stats.py:557-569 | Anova iff type 1 with more than 2 code samples; TTest iff type 1 with at most 2; ChiSquare iff type 3 or type 4 with fewer than 2; Friedman iff type 4 with at least 2; none otherwise |
| `StatTests.NewStats` | stats.py:548-555 | p-values start unset; a given test wins; otherwise the stored test is exactly the one `SelectStatTest` dispatches for the question and code samples, none iff the type is not 1, 3 or 4 |
| `StatTests.RowsOfSample` | stats.py:462-467 | exactly the rows of one code sample, in table order (the rows at the positions the mask keeps), as many as the sample occurs in the code-sample column |
| `StatTests.SampleSizeIsCount` | stats.py:462 | the code-sample mask keeps as many rows as the sample occurs in the column |
| `StatTests.IsFirstChoice` | stats.py:499 | `order == 0` holds exactly for the order 0 and for `False` (which equals 0 in Python), not for the text `"0"` |
| `StatTests.FirstChoiceSamples` | stats.py:499-500 | the code samples of exactly the rows whose order equals 0, in table order |
| `StatTests.RunTTest` | stats.py:457-487 | fewer than two distinct code samples leaves the stats untouched; otherwise the first two distinct samples' orders and names go to the paired test, and a table without ranking columns records None |
| `StatTests.RunChiSquare` | stats.py:492-511 | tests `attribute_id` or `code_sample_id` for type 3 and the first-choice code samples for type 4; a missing column raises; other types record None; only the p-value changes |
| `StatTests.RunAnova` | stats.py:431-452 | records the first row's attribute id; raises without an `attribute_id` column or on an empty table; both model fits fail on that table and record None |
| `StatTests.RunFriedman` | stats.py:516-525 | ranks the order table; any other table records None |
| `StatTests.ExecuteTest` | stats.py:574-576 | no test is a silent no-op; otherwise runs the chosen test, which keeps question, test and code samples |
| `StatTests.TTestNeedsTwoSamples` | stats.py:457-459 | a type-1 t-test on a table with fewer than two distinct code samples leaves both p-values unset |
| `StatTests.Type4ChiSquareIgnoresLaterChoices` | stats.py:498-500 | adding a row whose order is not 0 does not change the type-4 chi-square result |
| `ProductKpis.UsageFrequencyKpi` | src/app/services/product_services/producto_service.py:31-41 | zero active users gives all zeros; otherwise mean × active users = sessions and both counts are echoed |
| `ProductKpis.ShareOf` | src/app/services/product_services/producto_service.py:56-58 | a zero whole gives all zeros; otherwise percent × whole = 100 × part, within [0, 100] when part ≤ whole |
| `ProductKpis.DuplicatingUsersKpi` | src/app/services/product_services/producto_service.py:52-63 | zero users gives all zeros; otherwise percent × users = 100 × duplicating users, counts echoed |
| `ProductKpis.AiAdoptionKpi` | src/app/services/product_services/producto_service.py:95-109 | zero sessions gives all zeros; otherwise percent × sessions = 100 × sessions with AI, counts echoed |
| `ProductKpis.TypeLabel` | src/app/services/product_services/producto_service.py:49 | a missing or empty file type is reported as "sin_tipo", any other type as itself |
| `ProductKpis.ExportsKpi` | src/app/services/product_services/producto_service.py:43-50 | the total is echoed; one entry per repository row in order, count unchanged, type labelled |
| `ProductKpis.SessionDurationKpi` | src/app/services/product_services/producto_service.py:65-73 | no duration gives both fields unset; otherwise seconds are echoed and minutes × 60 = seconds |
| `ProductKpis.CountsByName` | src/app/services/product_services/producto_service.py:79 | the dictionary has a key iff some row has that name, and holds the count of the last such row |
| `ProductKpis.AiAnalysesKpi` | src/app/services/product_services/producto_service.py:77-80 | exactly five entries, DualSense, JAR, Ranking, Verbatim, Drivers in order; each total is the engine's repository count, or 0 without one; no other engine appears |
| `ProductKpis.ProcessingTimeKpi` | src/app/services/product_services/producto_service.py:82-93 | one entry per repository row in order, seconds echoed, minutes × 60 = seconds |
| `ProductKpis.CreditsKpi` | src/app/services/product_services/producto_service.py:113-127 | the total passes through; one (plan, credits) entry per row, in order |
| `HealthHistory.FreshEntry` | src/app/core/response_time_monitor.py:60-64 | a new hour's entry holds exactly the one sample, or exactly the one error, just measured |
| `HealthHistory.AddTo` | src/app/core/response_time_monitor.py:55-58 | a success appends exactly its sample, a failure exactly its error; the other list and the hour are unchanged |
| `HealthHistory.KeepNewest` | src/app/core/response_time_monitor.py:65 | keeps the newest min(length, 10) entries, a suffix of the history |
| `HealthHistory.AddToLast` | src/app/core/response_time_monitor.py:54-58 | same hour: the length is unchanged, every earlier entry is untouched, and the last entry gets the measurement |
| `HealthHistory.StartHour` | src/app/core/response_time_monitor.py:59-65 | new hour: the fresh entry is last, the earlier entries are the newest entries of the old history, and exactly min(n + 1, 10) entries are kept |
| `HealthHistory.Record` | src/app/core/response_time_monitor.py:54-65 | the history ends with the current hour and stays within 10 entries; the same hour changes only the last entry, by `AddTo`; a new hour appends the fresh entry and keeps exactly the newest min(n + 1, 10) entries |
| `HealthHistory.CheckOnce` | src/app/core/response_time_monitor.py:43-65 | records the check time; the last error is cleared on success and set to the message on failure; the history is updated by `Record` |
| `HealthHistory.RetentionBound` | src/app/core/response_time_monitor.py:19 | from a history within the bound, any run of checks keeps it within 10 entries, and non-empty after at least one check |
| `HealthHistory.OneMeasurementPerCheck` | src/app/core/response_time_monitor.py:54-64 | below the retention bound, a check adds exactly one measurement to the whole history |
| `PostgresUrl.Find` | src/app/core/config.py:30 | the first occurrence of a pattern at or after a position, or none |
| `PostgresUrl.ReplaceFirst` | src/app/core/config.py:27-31 | `replace(pat, repl, 1)`: with a first occurrence at i, the text before i, then `repl`, then the text after the occurrence; without one, the text unchanged |
| `PostgresUrl.BeforeFirst` | src/app/core/config.py:30 | `split(sep)[0]`: the text before the first occurrence of `sep`, or the whole text without one |
| `PostgresUrl.Normalise` | src/app/core/config.py:25-31 | `postgresql+psycopg://` and `postgresql://` prefixes become `postgresql+psycopg2://` followed by the unchanged remainder; any other URL is unchanged |
| `PostgresUrl.PlainSchemeHasNoPlus` | src/app/core/config.py:30 | for a URL starting with `postgresql://` the text before the first `//` is `postgresql:`, so the no-`+` test always passes |
| `PostgresUrl.Psycopg2Unchanged` | src/app/core/config.py:26-31 | a URL already naming `psycopg2` is left unchanged |
| `PostgresUrl.NormaliseIdempotent` | src/app/core/config.py:26-31 | normalising twice gives the same URL as normalising once |
| `BearerAuth.VerifyBearerToken` | src/app/core/auth.py:18-31 | a request passes iff no token is configured or the presented token equals it; otherwise 401 with `WWW-Authenticate: Bearer` and "Falta header Authorization" without credentials, "Token inválido" with wrong ones |
| `BearerAuth.OnlyTheTokenOpens` | src/app/core/auth.py:20-31 | with a token configured, presented credentials pass iff they equal the token, and no credentials never pass |
| `BearerAuth.EmptyTokenDisablesGuard` | src/app/core/auth.py:18-19 | with no token configured every request passes |
| `HubspotStore.Str` | src/app/core/hubspot_client.py:179 | `str` of a JSON string is the string itself |
| `HubspotStore.Truncate` | src/app/core/hubspot_client.py:179 | `[:200]` is the whole text when it has at most 200 characters, and exactly its first 200 characters otherwise |
| `HubspotStore.ErrorRecord` | src/app/core/hubspot_client.py:179 | an error record has exactly the keys error and detail; error is copied; detail is the full detail text (empty without one) when it has at most 200 characters, and exactly its first 200 characters otherwise |
| `HubspotStore.StoreResult` | src/app/core/hubspot_client.py:174-179 | None leaves the payload unchanged; a result without "error" is stored verbatim under the key, one with "error" as its error record; no other key is added or changed |
| `HubspotStore.StoreKeepsKeys` | src/app/core/hubspot_client.py:174-179 | storing never removes a key from the payload |
| `HubspotStore.ErrorsAreSummarised` | src/app/core/hubspot_client.py:178-179 | an error response is stored as an {error, detail} object whose detail has at most 200 characters |

## Left out

- The numerical procedures of the tests (stats.py:433-452, 460-487, 501-511, 516-525): statsmodels OLS and ANOVA tables, scipy's `ttest_rel` and `friedmanchisquare`, the Holm correction, `gammaincc`. These are foreign floating-point libraries, so they are the abstract `pvalue` parameter. The model states which data reaches them.
- Floating point: values are exact reals. Python's `round(x, 2)` in the KPI service and `round(elapsed, 4)` in the health check are not modelled.
- `get_translation` and the translation entities: a placeholder's `name` is its name already resolved for the request language. The `AggregatedSession`/`Section`/`Question`/`Sample` constructors only copy fields and are not modelled.
- Float parsing: `astype(float)` of placeholder names is an abstract `parse: string -> Option<real>`.
- Aggregators.OrderValues: weaker than `pd.to_numeric`, which converts numeric strings such as `"3"` in the order column; the model treats every text order, and a `None` order (NaN in pandas), as non-numeric and fails with `NotNumeric`. Modelling the conversion would also need the histogram keyed by the raw values, which Python keeps distinct (`"3"` and `3`).
- Answer values that are floats are not modelled; `Value` holds booleans, integers, texts and `None`.
- `code_samples=None` for `Stats`, where `len(None)` would raise, is not modelled: code samples are always a sequence.
- Anova needs an `attribute_id` column, but the type-1 cleaner's ranking table has none. The model states what happens on each table kind; the report assembly that pairs tests with tables is not part of this model.
- Type-1 aggregation assigns `mean_order` and `mean_value` before it raises on a missing attribute or, for an attribute with placeholders, on an empty table; no summary is appended in either case. The model returns only the `Failure`, not the partly updated object.
- `sesiones_creadas_por_fecha` is not modelled: it reads the clock, and its repository call passes keyword arguments the repository does not accept.
- `ProductoRepository`, the database layer and the ORM models are SQL queries, not modelled. Their results are the inputs of the KPI functions.
- The FastAPI routers and `main.py` (the HTTP layer) are not modelled.
- The network clients are not modelled: the HubSpot fetchers, `fetch_all_bi_data` and the Logto client.
- The health check's HTTP request, its clock and timing, `run_loop`, `start_background_task` and `get_state` are not modelled. The outcome of a check, its time and its hour key (`%Y-%m-%dT%H`) are inputs.
- `run_by_tenant.py` (subprocess and database plumbing) is not modelled.
- `HubspotStore.Str`: Python's `repr` of non-string JSON values is an abstract `render` parameter.
- `HubspotStore.Truncate`: strings are sequences of code points. This matches Python's slicing; byte or UTF-16 lengths are not modelled.
- `HealthHistory.OneMeasurementPerCheck` is stated only below the retention bound. At the bound, a new hour also drops the oldest entry and its measurements.

=== FILE: aggregators.dfy ===
/**
  The aggregation stage (`Aggregator`, `AggregatedAnswer` and
  `AggregatedPlaceholder` in stats.py): choose an aggregation strategy from
  the question, then summarise a cleaned table into one aggregated answer.
*/
module Aggregators {
  import opened Wrappers
  import opened SurveyTable
  import Histogram
  import Cleaners

  datatype Aggregator =
    AggregatorType1 | AggregatorType2 | AggregatorType3Attributes | AggregatorType3Samples | AggregatorType4

  /** Aggregator dispatch, the same decision table as the cleaner dispatch. */
  function SelectAggregator(q: Question): (a: Option<Aggregator>)
    ensures a == Some(AggregatorType1) <==> q.qtype == 1
    ensures a == Some(AggregatorType2) <==> q.qtype == 2
    ensures a == Some(AggregatorType3Attributes) <==> q.qtype == 3 && |q.attributes| != 0
    ensures a == Some(AggregatorType3Samples) <==> q.qtype == 3 && |q.attributes| == 0
    ensures a == Some(AggregatorType4) <==> q.qtype == 4
    ensures a.None? <==> !(1 <= q.qtype <= 4)
  {
    if q.qtype == 1 then Some(AggregatorType1)
    else if q.qtype == 2 then Some(AggregatorType2)
    else if q.qtype == 3 then
      (if |q.attributes| != 0 then Some(AggregatorType3Attributes) else Some(AggregatorType3Samples))
    else if q.qtype == 4 then Some(AggregatorType4)
    else None
  }

  /** Summary of one placeholder: how many rows picked it and their share of all rows. */
  datatype AggregatedPlaceholder = AggregatedPlaceholder(id: int, order: int, name: string, n: nat, percent: real)

  /**
    The fields of an aggregated answer the aggregators write; `None` stands
    for a field left unset. The descriptive fields the report assembly fills
    in (names, languages, min, max, ...) are not part of this model.
  */
  datatype AggregatedAnswer = AggregatedAnswer(
    n: Option<nat>,
    percent: Option<real>,
    text: Option<Value>,
    userId: Option<UserId>,
    meanOrder: Option<Float>,
    meanValue: Option<Float>,
    order: Option<map<int, nat>>,
    weightedOrder: Option<real>,
    placeholders: seq<AggregatedPlaceholder>,
    aggregator: Option<Aggregator>)

  /**
    The constructor: empty placeholder list, an explicitly given aggregator
    wins over dispatch. The question defaults to `None`; dispatching on it
    then fails at `question.type` with an AttributeError.
  */
  function NewAggregatedAnswer(q: Option<Question>, given: Option<Aggregator>): (r: Result<AggregatedAnswer, Error>)
    ensures r.Failure? <==> q.None? && given.None?
    ensures r.Failure? ==> r.error == MissingArgument("question")
    ensures r.Success? ==> r.value.placeholders == []
    ensures r.Success? ==> r.value.n.None? && r.value.percent.None? && r.value.text.None? && r.value.userId.None?
    ensures r.Success? ==>
      r.value.meanOrder.None? && r.value.meanValue.None? && r.value.order.None? && r.value.weightedOrder.None?
    ensures given.Some? ==> r.Success? && r.value.aggregator == given
    ensures given.None? && q.Some? ==> r.Success? && r.value.aggregator == SelectAggregator(q.value)
    ensures given.None? && q.Some? ==> (r.value.aggregator.None? <==> !(1 <= q.value.qtype <= 4))
  {
    var aggregator :- if given.Some? then Success(given)
                      else if q.Some? then Success(SelectAggregator(q.value))
                      else Failure(MissingArgument("question"));
    Success(AggregatedAnswer(None, None, None, None, None, None, None, None, [], aggregator))
  }

  /**
    `astype(float)` of a text column: every entry parsed by `parse` (the
    float conversion, left abstract), or `None` when one entry does not parse.
  */
  function ParseAll(names: seq<string>, parse: string -> Option<real>): (r: Option<seq<real>>)
    ensures r.Some? <==> forall i :: 0 <= i < |names| ==> parse(names[i]).Some?
    ensures r.Some? ==> |r.value| == |names|
    ensures r.Some? ==> forall i :: 0 <= i < |names| ==> r.value[i] == parse(names[i]).value
  {
    if |names| == 0 then Some([])
    else
      var n := |names| - 1;
      match ParseAll(names[..n], parse)
      case None => None
      case Some(vs) =>
        match parse(names[n])
        case None => None
        case Some(v) => Some(vs + [v])
  }

  /** The numeric `order` column, or `None` when some order value is not a number. */
  function OrderValues(rows: seq<OrderRow>): (r: Option<seq<int>>)
    ensures r.Some? <==> forall i :: 0 <= i < |rows| ==> Numeric(rows[i].order).Some?
    ensures r.Some? ==> |r.value| == |rows|
    ensures r.Some? ==> forall i :: 0 <= i < |rows| ==> r.value[i] == Numeric(rows[i].order).value
  {
    if |rows| == 0 then Some([])
    else
      var n := |rows| - 1;
      match OrderValues(rows[..n])
      case None => None
      case Some(vs) =>
        match Numeric(rows[n].order)
        case None => None
        case Some(v) => Some(vs + [v])
  }

  // ---- AggregatedPlaceholder ----

  /** One `AggregatedPlaceholder`: rows with this placeholder id, and their percentage of all rows. */
  function SummarisePlaceholder(p: Placeholder, rows: seq<PlaceholderRow>): (r: Result<AggregatedPlaceholder, Error>)
    ensures r.Failure? <==> |rows| == 0
    ensures r.Failure? ==> r.error == ZeroDivision
    ensures r.Success? ==>
      && r.value.id == p.id && r.value.order == p.order && r.value.name == p.name
      && r.value.n == multiset(PlaceholderIds(rows))[p.id]
      && IsPercent(r.value.percent, r.value.n, |rows|)
      && 0.0 <= r.value.percent <= 100.0
  {
    var n := CountOf(PlaceholderIds(rows), p.id);
    var pct :- Percent(n, |rows|);
    Success(AggregatedPlaceholder(p.id, p.order, p.name, n, pct))
  }

  /** The summaries of all placeholders of an attribute, in the attribute's order. */
  function SummarisePlaceholders(ps: seq<Placeholder>, rows: seq<PlaceholderRow>): (r: Result<seq<AggregatedPlaceholder>, Error>)
    ensures r.Failure? <==> |ps| > 0 && |rows| == 0
    ensures r.Failure? ==> r.error == ZeroDivision
    ensures r.Success? ==> |r.value| == |ps| && forall i :: 0 <= i < |ps| ==>
      && r.value[i].id == ps[i].id && r.value[i].order == ps[i].order && r.value[i].name == ps[i].name
      && r.value[i].n == multiset(PlaceholderIds(rows))[ps[i].id]
      && IsPercent(r.value[i].percent, r.value[i].n, |rows|)
  {
    if |ps| == 0 then Success([])
    else
      var init :- SummarisePlaceholders(ps[..|ps| - 1], rows);
      var last :- SummarisePlaceholder(ps[|ps| - 1], rows);
      Success(init + [last])
  }

  // ---- The five aggregation strategies ----

  /** The two means of `AggregatorType1`: of `placeholder_order`, and of `placeholder_name` read as floats. */
  function RankingMeans(rows: seq<PlaceholderRow>, parse: string -> Option<real>): (m: (Float, Option<Float>))
    ensures m.0.Finite? <==> |rows| > 0
    ensures m.0.Finite? ==> m.0.r * (|rows| as real) == Sum(PlaceholderOrders(rows)) as real
    ensures m.1.Some? <==> forall i :: 0 <= i < |rows| ==> parse(rows[i].placeholderName).Some?
    ensures m.1.Some? ==> (m.1.value.Finite? <==> |rows| > 0)
    ensures m.1.Some? && |rows| > 0 ==>
      m.1.value.r * (|rows| as real) == SumReal(ParseAll(PlaceholderNames(rows), parse).value)
  {
    var meanValue := match ParseAll(PlaceholderNames(rows), parse)
      case None => None
      case Some(vs) => Some(MeanReal(vs));
    (Mean(PlaceholderOrders(rows)), meanValue)
  }

  /** `AggregatorType1`: mean order, mean numeric name, and one summary per placeholder of the attribute. */
  function AggregateType1(ans: AggregatedAnswer, t: Table, attribute: Option<Attribute>,
                          parse: string -> Option<real>): (r: Result<AggregatedAnswer, Error>)
    ensures !t.PlaceholderTable? ==> r == Failure(MissingColumn("placeholder_order"))
    ensures t.PlaceholderTable? && attribute.None? ==> r == Failure(MissingArgument("attribute"))
    ensures t.PlaceholderTable? && attribute.Some? ==>
      (r.Failure? <==> |attribute.value.placeholders| > 0 && t.Size() == 0)
    ensures t.PlaceholderTable? && attribute.Some? && r.Failure? ==> r.error == ZeroDivision
    ensures r.Success? ==>
      && r.value.meanOrder == Some(RankingMeans(t.placeholderRows, parse).0)
      && r.value.meanValue == RankingMeans(t.placeholderRows, parse).1
      && r.value == ans.(meanOrder := r.value.meanOrder, meanValue := r.value.meanValue,
                         placeholders := r.value.placeholders)
    ensures r.Success? ==>
      var rows := t.placeholderRows;
      var ps := attribute.value.placeholders;
      && |r.value.placeholders| == |ans.placeholders| + |ps|
      && r.value.placeholders[..|ans.placeholders|] == ans.placeholders
      && (forall i :: 0 <= i < |ps| ==>
            var s := r.value.placeholders[|ans.placeholders| + i];
            s.id == ps[i].id && s.order == ps[i].order && s.name == ps[i].name
            && s.n == multiset(PlaceholderIds(rows))[s.id]
            && IsPercent(s.percent, s.n, |rows|))
  {
    match t
    case PlaceholderTable(rows) =>
      var means := RankingMeans(rows, parse);
      if attribute.None? then Failure(MissingArgument("attribute"))
      else
        var summaries :- SummarisePlaceholders(attribute.value.placeholders, rows);
        var all := ans.placeholders + summaries;
        assert all[..|ans.placeholders|] == ans.placeholders;
        assert forall i :: 0 <= i < |summaries| ==> all[|ans.placeholders| + i] == summaries[i];
        Success(ans.(meanOrder := Some(means.0), meanValue := means.1, placeholders := all))
    case _ => Failure(MissingColumn("placeholder_order"))
  }

  /** `AggregatorType2`: the text and user of the first row. */
  function AggregateType2(ans: AggregatedAnswer, t: Table): (r: Result<AggregatedAnswer, Error>)
    ensures !t.TextTable? ==> r == Failure(MissingColumn("value"))
    ensures t.TextTable? ==> (r.Failure? <==> t.Size() == 0)
    ensures t.TextTable? && t.Size() == 0 ==> r == Failure(EmptyTable)
    ensures r.Success? ==>
      r.value == ans.(text := Some(t.textRows[0].value), userId := Some(t.textRows[0].userId))
  {
    match t
    case TextTable(rows) =>
      if |rows| == 0 then Failure(EmptyTable)
      else Success(ans.(text := Some(rows[0].value), userId := Some(rows[0].userId)))
    case _ => Failure(MissingColumn("value"))
  }

  /** `AggregatorType3Attributes`: rows naming the attribute, as a share of the distinct users. */
  function AggregateType3Attributes(ans: AggregatedAnswer, t: Table, attribute: Option<Attribute>)
    : (r: Result<AggregatedAnswer, Error>)
    ensures !t.AttributeTable? ==> r == Failure(MissingColumn("attribute_id"))
    ensures t.AttributeTable? && attribute.None? ==> r == Failure(MissingArgument("attribute"))
    ensures t.AttributeTable? && attribute.Some? ==> (r.Failure? <==> t.Size() == 0)
    ensures t.AttributeTable? && attribute.Some? && t.Size() == 0 ==> r == Failure(ZeroDivision)
    ensures r.Success? ==>
      && r.value.n == Some(multiset(AttributeIds(t.attributeRows))[attribute.value.id])
      && r.value.n.value <= t.Size()
      && r.value.percent.Some?
      && IsPercent(r.value.percent.value, r.value.n.value, |set u | u in t.UserIds()|)
      && r.value == ans.(n := r.value.n, percent := r.value.percent)
  {
    var nResponses := DistinctCount(t.UserIds());
    match t
    case AttributeTable(rows) =>
      if attribute.None? then Failure(MissingArgument("attribute"))
      else
        var n := CountOf(AttributeIds(rows), attribute.value.id);
        var pct :- Percent(n, nResponses);
        Success(ans.(n := Some(n), percent := Some(pct)))
    case _ => Failure(MissingColumn("attribute_id"))
  }

  /** `AggregatorType3Samples`: rows naming the code sample, as a share of the distinct users. */
  function AggregateType3Samples(ans: AggregatedAnswer, t: Table, codeSample: Option<CodeSample>)
    : (r: Result<AggregatedAnswer, Error>)
    ensures codeSample.None? ==> r == Failure(MissingArgument("code_sample"))
    ensures codeSample.Some? ==> (r.Failure? <==> t.Size() == 0)
    ensures codeSample.Some? && t.Size() == 0 ==> r == Failure(ZeroDivision)
    ensures r.Success? ==>
      && r.value.n == Some(multiset(t.CodeSampleIds())[codeSample.value.id])
      && r.value.n.value <= t.Size()
      && r.value.percent.Some?
      && IsPercent(r.value.percent.value, r.value.n.value, |set u | u in t.UserIds()|)
      && r.value == ans.(n := r.value.n, percent := r.value.percent)
  {
    var nResponses := DistinctCount(t.UserIds());
    if codeSample.None? then Failure(MissingArgument("code_sample"))
    else
      var n := CountOf(t.CodeSampleIds(), codeSample.value.id);
      var pct :- Percent(n, nResponses);
      Success(ans.(n := Some(n), percent := Some(pct)))
  }

  /** `AggregatorType4`: the histogram of the order column and its weighted sum. */
  function AggregateType4(ans: AggregatedAnswer, t: Table): (r: Result<AggregatedAnswer, Error>)
    ensures !t.OrderTable? ==> r == Failure(MissingColumn("order"))
    ensures t.OrderTable? ==> (r.Failure? <==> OrderValues(t.orderRows).None?)
    ensures t.OrderTable? && r.Failure? ==> r.error == NotNumeric
    ensures r.Success? ==>
      var xs := OrderValues(t.orderRows).value;
      && r.value.order.Some? && r.value.weightedOrder.Some?
      && r.value.order.value.Keys == (set x | x in xs)
      && (forall k :: k in r.value.order.value ==> r.value.order.value[k] == multiset(xs)[k] >= 1)
      && r.value == ans.(order := r.value.order, weightedOrder := r.value.weightedOrder)
  {
    match t
    case OrderTable(rows) =>
      (match OrderValues(rows)
       case None => Failure(NotNumeric)
       case Some(xs) =>
         var h := Histogram.Build(xs);
         Success(ans.(order := Some(h), weightedOrder := Some(Histogram.Weighted(Unique(xs), h) as real))))
    case _ => Failure(MissingColumn("order"))
  }

  /**
    The histogram partitions the rows and the weighted order is the sum of
    all order values: Σ count = number of rows, Σ value × count = Σ value.
  */
  lemma Type4Totals(ans: AggregatedAnswer, rows: seq<OrderRow>)
    requires OrderValues(rows).Some?
    ensures var xs := OrderValues(rows).value;
      var r := AggregateType4(ans, OrderTable(rows));
      && r.Success?
      && (forall i :: 0 <= i < |Unique(xs)| ==> Unique(xs)[i] in r.value.order.value)
      && Histogram.Total(Unique(xs), r.value.order.value) == |rows|
      && r.value.weightedOrder == Some(Sum(xs) as real)
  {
    var xs := OrderValues(rows).value;
    Histogram.HistogramPartitions(xs);
    Histogram.WeightedIsSum(xs);
  }

  /** `execute_aggregator`: run the chosen strategy, or raise when none is set. */
  function ExecuteAggregator(ans: AggregatedAnswer, t: Table, attribute: Option<Attribute>,
                             codeSample: Option<CodeSample>, parse: string -> Option<real>)
    : (r: Result<AggregatedAnswer, Error>)
    ensures ans.aggregator.None? ==> r == Failure(NotSet("aggregator not set"))
    ensures r.Success? ==> r.value.aggregator == ans.aggregator
    ensures ans.aggregator == Some(AggregatorType1) ==> r == AggregateType1(ans, t, attribute, parse)
    ensures ans.aggregator == Some(AggregatorType2) ==> r == AggregateType2(ans, t)
    ensures ans.aggregator == Some(AggregatorType3Attributes) ==> r == AggregateType3Attributes(ans, t, attribute)
    ensures ans.aggregator == Some(AggregatorType3Samples) ==> r == AggregateType3Samples(ans, t, codeSample)
    ensures ans.aggregator == Some(AggregatorType4) ==> r == AggregateType4(ans, t)
  {
    match ans.aggregator
    case None => Failure(NotSet("aggregator not set"))
    case Some(AggregatorType1) => AggregateType1(ans, t, attribute, parse)
    case Some(AggregatorType2) => AggregateType2(ans, t)
    case Some(AggregatorType3Attributes) => AggregateType3Attributes(ans, t, attribute)
    case Some(AggregatorType3Samples) => AggregateType3Samples(ans, t, codeSample)
    case Some(AggregatorType4) => AggregateType4(ans, t)
  }

  /** Aggregator dispatch mirrors cleaner dispatch: each cleaner is paired with the aggregator of its kind. */
  lemma DispatchesAgree(q: Question)
    ensures SelectAggregator(q).Some? <==> Cleaners.SelectCleaner(q).Some?
    ensures Cleaners.SelectCleaner(q) == Some(Cleaners.CleanerType1) <==> SelectAggregator(q) == Some(AggregatorType1)
    ensures Cleaners.SelectCleaner(q) == Some(Cleaners.CleanerType2) <==> SelectAggregator(q) == Some(AggregatorType2)
    ensures Cleaners.SelectCleaner(q) == Some(Cleaners.CleanerType3Attributes) <==> SelectAggregator(q) == Some(AggregatorType3Attributes)
    ensures Cleaners.SelectCleaner(q) == Some(Cleaners.CleanerType3Samples) <==> SelectAggregator(q) == Some(AggregatorType3Samples)
    ensures Cleaners.SelectCleaner(q) == Some(Cleaners.CleanerType4) <==> SelectAggregator(q) == Some(AggregatorType4)
  {
  }

  /**
    Cleaning and aggregating a question with the strategies its type selects
    never looks up a column the cleaned table lacks.
  */
  lemma PipelineColumnsMatch(q: Question, attributeId: Option<int>, answers: seq<Answer>,
                             attribute: Option<Attribute>, codeSample: Option<CodeSample>,
                             parse: string -> Option<real>)
    requires 1 <= q.qtype <= 4
    ensures var t := Cleaners.ExecuteCleaner(Cleaners.NewCleanData(q, attributeId, None), answers);
      var a := NewAggregatedAnswer(Some(q), None);
      t.Success? && a.Success? && var r := ExecuteAggregator(a.value, t.value, attribute, codeSample, parse);
      r.Failure? ==> !r.error.MissingColumn? && !r.error.NotSet?
  {
  }
}

=== FILE: bearer_auth.dfy ===
/**
  The bearer-token guard placed in front of the dashboard endpoints
  (`verify_bearer_token` in auth.py).

  The configured token is the `TOKEN_GRAFANA` setting. The credentials are
  what the HTTP bearer scheme extracted from the `Authorization` header:
  `None` when the header is missing, is not a `Bearer` header, or carries
  no token.
*/
module BearerAuth {
  import opened Wrappers

  const Unauthorized: nat := 401

  /** The `HTTPException` the guard raises. */
  datatype HttpError = HttpError(status: nat, detail: string, wwwAuthenticate: string)

  const MissingHeader := HttpError(Unauthorized, "Falta header Authorization", "Bearer")
  const InvalidToken := HttpError(Unauthorized, "Token inválido", "Bearer")

  /** The guard's verdict: `Success(())` lets the request through. */
  function VerifyBearerToken(configuredToken: string, credentials: Option<string>): (r: Result<(), HttpError>)
    ensures r.Success? <==> configuredToken == [] || credentials == Some(configuredToken)
    ensures r.Failure? ==> r.error.status == Unauthorized && r.error.wwwAuthenticate == "Bearer"
    ensures r.Failure? && credentials.None? ==> r.error == MissingHeader
    ensures r.Failure? && credentials.Some? ==> r.error == InvalidToken
  {
    if configuredToken == [] then Success(())
    else if credentials.None? then Failure(MissingHeader)
    else if credentials.value != configuredToken then Failure(InvalidToken)
    else Success(())
  }

  /** With a token configured, no request gets through without presenting exactly that token. */
  lemma OnlyTheTokenOpens(configuredToken: string, presented: string)
    requires configuredToken != []
    ensures VerifyBearerToken(configuredToken, Some(presented)).Success? <==> presented == configuredToken
    ensures VerifyBearerToken(configuredToken, None).Failure?
  {
  }

  /** An empty configured token switches the guard off: every request passes. */
  lemma EmptyTokenDisablesGuard(credentials: Option<string>)
    ensures VerifyBearerToken([], credentials).Success?
  {
  }
}

=== FILE: cleaners.dfy ===
/**
  The cleaning stage (`DataCleaner` and `CleanData` in stats.py): choose a
  cleaning strategy from the question, then turn raw answers into a table
  whose schema depends on that strategy.
*/
module Cleaners {
  import opened Wrappers
  import opened SurveyTable

  datatype Cleaner = CleanerType1 | CleanerType2 | CleanerType3Attributes | CleanerType3Samples | CleanerType4

  /** Cleaner dispatch: one strategy per known question type, none for any other type. */
  function SelectCleaner(q: Question): (c: Option<Cleaner>)
    ensures c == Some(CleanerType1) <==> q.qtype == 1
    ensures c == Some(CleanerType2) <==> q.qtype == 2
    ensures c == Some(CleanerType3Attributes) <==> q.qtype == 3 && |q.attributes| != 0
    ensures c == Some(CleanerType3Samples) <==> q.qtype == 3 && |q.attributes| == 0
    ensures c == Some(CleanerType4) <==> q.qtype == 4
    ensures c.None? <==> !(1 <= q.qtype <= 4)
  {
    if q.qtype == 1 then Some(CleanerType1)
    else if q.qtype == 2 then Some(CleanerType2)
    else if q.qtype == 3 then
      (if |q.attributes| != 0 then Some(CleanerType3Attributes) else Some(CleanerType3Samples))
    else if q.qtype == 4 then Some(CleanerType4)
    else None
  }

  /** A `CleanData` object: the question, an optional attribute id and the strategy fixed at construction. */
  datatype CleanData = CleanData(question: Question, attributeId: Option<int>, cleaner: Option<Cleaner>)

  /** The constructor: an explicitly given cleaner wins, otherwise the dispatch chooses. */
  function NewCleanData(q: Question, attributeId: Option<int>, given: Option<Cleaner>): (cd: CleanData)
    ensures cd.question == q && cd.attributeId == attributeId
    ensures given.Some? ==> cd.cleaner == given
    ensures given.None? ==> cd.cleaner == SelectCleaner(q)
    ensures given.None? ==> (cd.cleaner.None? <==> !(1 <= q.qtype <= 4))
  {
    CleanData(q, attributeId, if given.Some? then given else SelectCleaner(q))
  }

  // ---- The non-filtering cleaners: one row per answer, in input order ----

  function CleanType1(answers: seq<Answer>): (rows: seq<PlaceholderRow>)
    ensures |rows| == |answers|
    ensures forall i :: 0 <= i < |rows| ==>
      && rows[i].userId == answers[i].userId
      && rows[i].placeholderId == answers[i].placeholderId
      && rows[i].placeholderOrder == answers[i].placeholder.order
      && rows[i].placeholderName == answers[i].placeholder.name
      && rows[i].codeSampleId == answers[i].codeSampleId
  {
    if |answers| == 0 then []
    else
      var a := answers[|answers| - 1];
      CleanType1(answers[..|answers| - 1])
        + [PlaceholderRow(a.userId, a.placeholderId, a.placeholder.order, a.placeholder.name, a.codeSampleId)]
  }

  function CleanType2(answers: seq<Answer>): (rows: seq<TextRow>)
    ensures |rows| == |answers|
    ensures forall i :: 0 <= i < |rows| ==>
      rows[i].userId == answers[i].userId && rows[i].value == answers[i].value
      && rows[i].codeSampleId == answers[i].codeSampleId
  {
    if |answers| == 0 then []
    else
      var a := answers[|answers| - 1];
      CleanType2(answers[..|answers| - 1]) + [TextRow(a.userId, a.value, a.codeSampleId)]
  }

  function CleanType4(answers: seq<Answer>): (rows: seq<OrderRow>)
    ensures |rows| == |answers|
    ensures forall i :: 0 <= i < |rows| ==>
      rows[i].userId == answers[i].userId && rows[i].codeSampleId == answers[i].codeSampleId
      && rows[i].order == answers[i].value
  {
    if |answers| == 0 then []
    else
      var a := answers[|answers| - 1];
      CleanType4(answers[..|answers| - 1]) + [OrderRow(a.userId, a.codeSampleId, a.value)]
  }

  // ---- The filtering cleaners of type 3 ----

  /** `if answer.value:` */
  predicate IsTruthyAnswer(a: Answer) {
    Truthy(a.value)
  }

  function AttributeRowOf(a: Answer): AttributeRow {
    AttributeRow(a.userId, a.attributeId, a.codeSampleId)
  }

  function SampleRowOf(a: Answer): SampleRow {
    SampleRow(a.userId, a.codeSampleId)
  }

  /** `CleanerType3Attributes`: one (user, attribute, code sample) row per truthy answer, in input order. */
  function CleanType3Attributes(answers: seq<Answer>): (rows: seq<AttributeRow>)
    ensures |rows| == |KeptIndices(answers, IsTruthyAnswer)|
    ensures |rows| == |set i | 0 <= i < |answers| && Truthy(answers[i].value)|
    ensures forall j :: 0 <= j < |rows| ==>
      var a := answers[KeptIndices(answers, IsTruthyAnswer)[j]];
      Truthy(a.value) && rows[j] == AttributeRow(a.userId, a.attributeId, a.codeSampleId)
  {
    KeptIndicesCount(answers, IsTruthyAnswer, set i | 0 <= i < |answers| && Truthy(answers[i].value));
    Select(answers, IsTruthyAnswer, AttributeRowOf)
  }

  /** `CleanerType3Samples`: one (user, code sample) row per truthy answer, in input order. */
  function CleanType3Samples(answers: seq<Answer>): (rows: seq<SampleRow>)
    ensures |rows| == |KeptIndices(answers, IsTruthyAnswer)|
    ensures |rows| == |set i | 0 <= i < |answers| && Truthy(answers[i].value)|
    ensures forall j :: 0 <= j < |rows| ==>
      var a := answers[KeptIndices(answers, IsTruthyAnswer)[j]];
      Truthy(a.value) && rows[j] == SampleRow(a.userId, a.codeSampleId)
  {
    KeptIndicesCount(answers, IsTruthyAnswer, set i | 0 <= i < |answers| && Truthy(answers[i].value));
    Select(answers, IsTruthyAnswer, SampleRowOf)
  }

  /** The schema each cleaner produces. */
  predicate Produces(c: Cleaner, t: Table) {
    match c
    case CleanerType1 => t.PlaceholderTable?
    case CleanerType2 => t.TextTable?
    case CleanerType3Attributes => t.AttributeTable?
    case CleanerType3Samples => t.SampleTable?
    case CleanerType4 => t.OrderTable?
  }

  /** `u` is the user of some answer. */
  predicate Answered(u: UserId, answers: seq<Answer>) {
    exists i :: 0 <= i < |answers| && answers[i].userId == u
  }

  /** Every user id in `col` belongs to a user that answered. */
  predicate UsersAnswered(col: seq<UserId>, answers: seq<Answer>) {
    forall j :: 0 <= j < |col| ==> Answered(col[j], answers)
  }

  /** A column that copies the user id of the answer at position `idx[j]` holds only users that answered. */
  lemma {:induction false} UsersAnsweredByIndex(col: seq<UserId>, answers: seq<Answer>, idx: seq<nat>)
    requires |idx| == |col|
    requires forall j :: 0 <= j < |idx| ==> idx[j] < |answers| && col[j] == answers[idx[j]].userId
    ensures UsersAnswered(col, answers)
  {
    forall j | 0 <= j < |col|
      ensures Answered(col[j], answers)
    {
      var i := idx[j];
      assert 0 <= i < |answers| && answers[i].userId == col[j];
    }
  }

  /** The identity positions `0, 1, ..., n-1`. */
  function Positions(n: nat): (idx: seq<nat>)
    ensures |idx| == n && forall j :: 0 <= j < n ==> idx[j] == j
  {
    seq(n, j requires 0 <= j < n => j)
  }

  /** One run of a cleaning strategy. */
  function Clean(c: Cleaner, answers: seq<Answer>): (t: Table)
    ensures Produces(c, t)
    ensures c in {CleanerType1, CleanerType2, CleanerType4} ==> t.Size() == |answers|
    ensures c in {CleanerType3Attributes, CleanerType3Samples} ==>
      t.Size() == |set i | 0 <= i < |answers| && Truthy(answers[i].value)|
    ensures UsersAnswered(t.UserIds(), answers)
  {
    match c
    case CleanerType1 =>
      var t := PlaceholderTable(CleanType1(answers));
      UsersAnsweredByIndex(t.UserIds(), answers, Positions(|answers|));
      t
    case CleanerType2 =>
      var t := TextTable(CleanType2(answers));
      UsersAnsweredByIndex(t.UserIds(), answers, Positions(|answers|));
      t
    case CleanerType3Attributes =>
      var t := AttributeTable(CleanType3Attributes(answers));
      UsersAnsweredByIndex(t.UserIds(), answers, KeptIndices(answers, IsTruthyAnswer));
      t
    case CleanerType3Samples =>
      var t := SampleTable(CleanType3Samples(answers));
      UsersAnsweredByIndex(t.UserIds(), answers, KeptIndices(answers, IsTruthyAnswer));
      t
    case CleanerType4 =>
      var t := OrderTable(CleanType4(answers));
      UsersAnsweredByIndex(t.UserIds(), answers, Positions(|answers|));
      t
  }

  /** `execute_cleaner`: run the chosen strategy, or raise when none is set. */
  function ExecuteCleaner(cd: CleanData, answers: seq<Answer>): (r: Result<Table, Error>)
    ensures r.Failure? <==> cd.cleaner.None?
    ensures r.Failure? ==> r.error == NotSet("data_cleaner not set")
    ensures cd.cleaner == Some(CleanerType1) ==> r == Success(PlaceholderTable(CleanType1(answers)))
    ensures cd.cleaner == Some(CleanerType2) ==> r == Success(TextTable(CleanType2(answers)))
    ensures cd.cleaner == Some(CleanerType3Attributes) ==> r == Success(AttributeTable(CleanType3Attributes(answers)))
    ensures cd.cleaner == Some(CleanerType3Samples) ==> r == Success(SampleTable(CleanType3Samples(answers)))
    ensures cd.cleaner == Some(CleanerType4) ==> r == Success(OrderTable(CleanType4(answers)))
    ensures r.Success? ==> Produces(cd.cleaner.value, r.value)
    ensures r.Success? && cd.cleaner.value in {CleanerType1, CleanerType2, CleanerType4} ==>
      r.value.Size() == |answers|
    ensures r.Success? && cd.cleaner.value in {CleanerType3Attributes, CleanerType3Samples} ==>
      r.value.Size() == |set i | 0 <= i < |answers| && Truthy(answers[i].value)|
    ensures r.Success? ==> UsersAnswered(r.value.UserIds(), answers)
  {
    match cd.cleaner
    case None => Failure(NotSet("data_cleaner not set"))
    case Some(c) => Success(Clean(c, answers))
  }

  /** A question of an unknown type has no cleaner, so cleaning it raises. */
  lemma UnknownTypeCannotBeCleaned(q: Question, attributeId: Option<int>, answers: seq<Answer>)
    requires !(1 <= q.qtype <= 4)
    ensures ExecuteCleaner(NewCleanData(q, attributeId, None), answers) == Failure(NotSet("data_cleaner not set"))
  {
  }
}

=== FILE: health_history.dfy ===
/**
  The hour-bucketed history of the API health check (`_check_once` in
  response_time_monitor.py). The HTTP request and the clock are inputs: a
  check either responded after some elapsed time or raised with a message,
  and `hour` is the hour key (`%Y-%m-%dT%H`) of the moment of the check.
*/
module HealthHistory {
  import opened Wrappers

  /** `MAX_REGISTROS_EN_MEMORIA`, equal to `RETENTION_HOURS`. */
  const MaxEntries: nat := 10

  /** One hour of measurements: the response times and the error messages seen during that hour. */
  datatype HourEntry = HourEntry(hour: string, samples: seq<real>, errors: seq<string>)

  datatype CheckOutcome = Responded(elapsedSeconds: real) | Raised(message: string)

  /** The entry a new hour starts with: the one measurement just taken. */
  function FreshEntry(hour: string, outcome: CheckOutcome): (e: HourEntry)
    ensures e.hour == hour
    ensures outcome.Responded? ==> e.samples == [outcome.elapsedSeconds] && e.errors == []
    ensures outcome.Raised? ==> e.samples == [] && e.errors == [outcome.message]
  {
    match outcome
    case Responded(t) => HourEntry(hour, [t], [])
    case Raised(m) => HourEntry(hour, [], [m])
  }

  /** Adds one measurement to an existing entry. */
  function AddTo(e: HourEntry, outcome: CheckOutcome): (e': HourEntry)
    ensures e'.hour == e.hour
    ensures outcome.Responded? ==> e'.samples == e.samples + [outcome.elapsedSeconds] && e'.errors == e.errors
    ensures outcome.Raised? ==> e'.samples == e.samples && e'.errors == e.errors + [outcome.message]
  {
    match outcome
    case Responded(t) => e.(samples := e.samples + [t])
    case Raised(m) => e.(errors := e.errors + [m])
  }

  /** `_history[-MAX_REGISTROS_EN_MEMORIA:]`: the newest `MaxEntries` entries. */
  function KeepNewest(h: seq<HourEntry>): (r: seq<HourEntry>)
    ensures |r| == if |h| <= MaxEntries then |h| else MaxEntries
    ensures r == h[|h| - |r|..]
  {
    if |h| <= MaxEntries then h else h[|h| - MaxEntries..]
  }

  /** Same hour: the measurement goes into the last entry; every earlier entry is untouched. */
  function AddToLast(history: seq<HourEntry>, outcome: CheckOutcome): (h: seq<HourEntry>)
    requires |history| > 0
    ensures |h| == |history|
    ensures h[..|h| - 1] == history[..|history| - 1]
    ensures h[|h| - 1] == AddTo(history[|history| - 1], outcome)
  {
    history[..|history| - 1] + [AddTo(history[|history| - 1], outcome)]
  }

  /** New hour: a fresh entry is appended, then only the newest entries are kept. */
  function StartHour(history: seq<HourEntry>, hour: string, outcome: CheckOutcome): (h: seq<HourEntry>)
    ensures 0 < |h| <= |history| + 1
    ensures |h| <= MaxEntries
    ensures |h| == if |history| < MaxEntries then |history| + 1 else MaxEntries
    ensures h[|h| - 1] == FreshEntry(hour, outcome)
    ensures h[..|h| - 1] == history[|history| - (|h| - 1)..]
  {
    var appended := history + [FreshEntry(hour, outcome)];
    var kept := KeepNewest(appended);
    assert kept[..|kept| - 1] == history[|history| - (|kept| - 1)..];
    kept
  }

  /**
    The history update of one check: the measurement goes into the last entry
    when it belongs to the same hour, otherwise into a new entry, after which
    only the newest entries are retained.
  */
  function Record(history: seq<HourEntry>, hour: string, outcome: CheckOutcome): (h: seq<HourEntry>)
    ensures |h| > 0 && h[|h| - 1].hour == hour
    ensures |h| <= |history| + 1
    ensures |history| <= MaxEntries ==> |h| <= MaxEntries
    ensures |history| > 0 && history[|history| - 1].hour == hour ==>
      && |h| == |history|
      && h[..|h| - 1] == history[..|history| - 1]
      && h[|h| - 1] == AddTo(history[|history| - 1], outcome)
    ensures !(|history| > 0 && history[|history| - 1].hour == hour) ==>
      && |h| == (if |history| < MaxEntries then |history| + 1 else MaxEntries)
      && h[|h| - 1] == FreshEntry(hour, outcome)
      && h[..|h| - 1] == history[|history| - (|h| - 1)..]
  {
    if |history| > 0 && history[|history| - 1].hour == hour then AddToLast(history, outcome)
    else StartHour(history, hour, outcome)
  }

  /** The monitor's module-level state. */
  datatype Monitor = Monitor(history: seq<HourEntry>, lastCheckAt: Option<int>, lastError: Option<string>)

  /** `_check_once`: records the check time, the last error (cleared on success) and the measurement. */
  function CheckOnce(m: Monitor, now: int, hour: string, outcome: CheckOutcome): (m': Monitor)
    ensures m'.lastCheckAt == Some(now)
    ensures outcome.Responded? ==> m'.lastError.None?
    ensures outcome.Raised? ==> m'.lastError == Some(outcome.message)
    ensures m'.history == Record(m.history, hour, outcome)
  {
    Monitor(Record(m.history, hour, outcome), Some(now),
            if outcome.Raised? then Some(outcome.message) else None)
  }

  /** Starting from a history within the retention bound, any run of checks stays within it. */
  lemma {:induction false} RetentionBound(history: seq<HourEntry>, checks: seq<(string, CheckOutcome)>)
    requires |history| <= MaxEntries
    ensures |RecordAll(history, checks)| <= MaxEntries
    ensures |checks| > 0 ==> |RecordAll(history, checks)| > 0
  {
    if |checks| > 0 {
      var n := |checks| - 1;
      RetentionBound(history, checks[..n]);
    }
  }

  /** A sequence of checks applied in order. */
  function RecordAll(history: seq<HourEntry>, checks: seq<(string, CheckOutcome)>): seq<HourEntry> {
    if |checks| == 0 then history
    else Record(RecordAll(history, checks[..|checks| - 1]), checks[|checks| - 1].0, checks[|checks| - 1].1)
  }

  /** Each check adds exactly one measurement to the whole history. */
  lemma {:induction false} OneMeasurementPerCheck(history: seq<HourEntry>, hour: string, outcome: CheckOutcome)
    requires |history| < MaxEntries
    ensures Measurements(Record(history, hour, outcome)) == Measurements(history) + 1
  {
    var h := Record(history, hour, outcome);
    if |history| > 0 && history[|history| - 1].hour == hour {
      var p := history[..|history| - 1];
      assert history == p + [history[|history| - 1]];
      assert h == p + [h[|h| - 1]];
      MeasurementsAppend(p, history[|history| - 1]);
      MeasurementsAppend(p, h[|h| - 1]);
    } else {
      assert h == history + [FreshEntry(hour, outcome)];
      MeasurementsAppend(history, FreshEntry(hour, outcome));
    }
  }

  /** Total number of samples and errors held by a history. */
  function Measurements(h: seq<HourEntry>): nat {
    if |h| == 0 then 0
    else Measurements(h[..|h| - 1]) + |h[|h| - 1].samples| + |h[|h| - 1].errors|
  }

  lemma MeasurementsAppend(h: seq<HourEntry>, e: HourEntry)
    ensures Measurements(h + [e]) == Measurements(h) + |e.samples| + |e.errors|
  {
    assert (h + [e])[..|h|] == h;
  }
}

=== FILE: histogram.dfy ===
/**
  The order histogram of the ranking aggregator: each distinct order value
  mapped to its number of occurrences, and the weighted sum of those values.
*/
module Histogram {
  import opened SurveyTable

  /** The histogram of `xs`, built by counting one value at a time. */
  function Build(xs: seq<int>): (h: map<int, nat>)
    ensures h.Keys == set x | x in xs
    ensures forall k :: k in h ==> h[k] == multiset(xs)[k] && h[k] >= 1
  {
    if |xs| == 0 then map[]
    else
      var p := xs[..|xs| - 1];
      var x := xs[|xs| - 1];
      assert xs == p + [x];
      assert (set y | y in xs) == (set y | y in p) + {x};
      var h := Build(p);
      h[x := (if x in h then h[x] else 0) + 1]
  }

  /**
    Sum of key times count over `keys`, in the order given: the `weighted`
    column summed. Its value over the histogram of a column is stated by
    `WeightedIsSum`.
  */
  function Weighted(keys: seq<int>, h: map<int, nat>): (w: int)
    requires forall i :: 0 <= i < |keys| ==> keys[i] in h
    ensures (forall i :: 0 <= i < |keys| ==> keys[i] >= 0) ==> w >= 0
    ensures (forall i :: 0 <= i < |keys| ==> h[keys[i]] == 0) ==> w == 0
  {
    if |keys| == 0 then 0
    else Weighted(keys[..|keys| - 1], h) + keys[|keys| - 1] * h[keys[|keys| - 1]]
  }

  /** Sum of the counts over `keys`. */
  function Total(keys: seq<int>, h: map<int, nat>): int
    requires forall i :: 0 <= i < |keys| ==> keys[i] in h
  {
    if |keys| == 0 then 0
    else Total(keys[..|keys| - 1], h) + h[keys[|keys| - 1]]
  }

  // ---- Reference sums used to characterise the histogram ----

  function Identity(x: int): int { x }
  function One(x: int): int { 1 }

  /** Sum of `w(k) * (occurrences of k in xs)` over the keys `u`. */
  function Tally(u: seq<int>, xs: seq<int>, w: int -> int): int {
    if |u| == 0 then 0
    else Tally(u[..|u| - 1], xs, w) + w(u[|u| - 1]) * multiset(xs)[u[|u| - 1]]
  }

  /** Sum of `w(x)` over every element of `xs`. */
  function SumOf(xs: seq<int>, w: int -> int): int {
    if |xs| == 0 then 0 else SumOf(xs[..|xs| - 1], w) + w(xs[|xs| - 1])
  }

  lemma {:induction false} TallyOfEmpty(u: seq<int>, w: int -> int)
    ensures Tally(u, [], w) == 0
  {
    if |u| > 0 {
      TallyOfEmpty(u[..|u| - 1], w);
    }
  }

  /** Appending one element adds its weight exactly once, because the keys are distinct. */
  lemma {:induction false} TallyStep(u: seq<int>, xs: seq<int>, x: int, w: int -> int)
    requires Distinct(u)
    ensures Tally(u, xs + [x], w) == Tally(u, xs, w) + (if x in u then w(x) else 0)
  {
    if |u| > 0 {
      var p := u[..|u| - 1];
      var last := u[|u| - 1];
      assert u == p + [last];
      TallyStep(p, xs, x, w);
      assert multiset(xs + [x])[last] == multiset(xs)[last] + (if last == x then 1 else 0);
      assert x in u <==> x in p || x == last;
      if x == last {
        assert x !in p;
      }
    }
  }

  /** Counting per distinct key and summing gives the same total as summing element by element. */
  lemma {:induction false} TallyCoversAll(u: seq<int>, xs: seq<int>, w: int -> int)
    requires Distinct(u)
    requires forall x :: x in xs ==> x in u
    ensures Tally(u, xs, w) == SumOf(xs, w)
  {
    if |xs| == 0 {
      TallyOfEmpty(u, w);
    } else {
      var p := xs[..|xs| - 1];
      var x := xs[|xs| - 1];
      assert xs == p + [x];
      TallyCoversAll(u, p, w);
      TallyStep(u, p, x, w);
    }
  }

  /** `h` agrees with the occurrence counts of `xs` on every key of `keys`. */
  predicate CountsOn(keys: seq<int>, h: map<int, nat>, xs: seq<int>) {
    forall i :: 0 <= i < |keys| ==> keys[i] in h && h[keys[i]] == multiset(xs)[keys[i]]
  }

  lemma {:induction false} WeightedIsTally(keys: seq<int>, h: map<int, nat>, xs: seq<int>)
    requires CountsOn(keys, h, xs)
    ensures Weighted(keys, h) == Tally(keys, xs, Identity)
  {
    if |keys| > 0 {
      WeightedIsTally(keys[..|keys| - 1], h, xs);
    }
  }

  lemma {:induction false} TotalIsTally(keys: seq<int>, h: map<int, nat>, xs: seq<int>)
    requires CountsOn(keys, h, xs)
    ensures Total(keys, h) == Tally(keys, xs, One)
  {
    if |keys| > 0 {
      TotalIsTally(keys[..|keys| - 1], h, xs);
    }
  }

  lemma {:induction false} SumOfIdentity(xs: seq<int>)
    ensures SumOf(xs, Identity) == Sum(xs)
  {
    if |xs| > 0 {
      SumOfIdentity(xs[..|xs| - 1]);
    }
  }

  lemma {:induction false} SumOfOne(xs: seq<int>)
    ensures SumOf(xs, One) == |xs|
  {
    if |xs| > 0 {
      SumOfOne(xs[..|xs| - 1]);
    }
  }

  /**
    The histogram partitions the values: its counts, summed over the
    distinct values in first-appearance order, add up to the number of values.
  */
  lemma HistogramPartitions(xs: seq<int>)
    ensures forall i :: 0 <= i < |Unique(xs)| ==> Unique(xs)[i] in Build(xs)
    ensures Total(Unique(xs), Build(xs)) == |xs|
  {
    TotalIsTally(Unique(xs), Build(xs), xs);
    TallyCoversAll(Unique(xs), xs, One);
    SumOfOne(xs);
  }

  /** The weighted order, Σ value × count over the histogram, equals the plain sum of all values. */
  lemma WeightedIsSum(xs: seq<int>)
    ensures forall i :: 0 <= i < |Unique(xs)| ==> Unique(xs)[i] in Build(xs)
    ensures Weighted(Unique(xs), Build(xs)) == Sum(xs)
  {
    WeightedIsTally(Unique(xs), Build(xs), xs);
    TallyCoversAll(Unique(xs), xs, Identity);
    SumOfIdentity(xs);
  }
}

=== FILE: hubspot_store.dfy ===
/**
  How the HubSpot client files each API response into the combined BI
  payload (`_store_result` in hubspot_client.py). A missing response leaves
  the payload as it was; a response with an `error` key is stored as a
  short error record; any other response is stored verbatim.
*/
module HubspotStore {
  import opened Wrappers

  /** A decoded JSON value. */
  datatype Json =
    | JNull
    | JBool(b: bool)
    | JNumber(n: int)
    | JString(s: string)
    | JArray(items: seq<Json>)
    | JObject(fields: map<string, Json>)

  /** Longest error detail the payload keeps. */
  const MaxDetail: nat := 200

  /**
    Python's `str` of a JSON value: a string is itself, anything else is
    rendered by `render`, which stands for Python's `repr` of dicts, lists,
    numbers and booleans.
  */
  function Str(j: Json, render: Json -> string): (s: string)
    ensures j.JString? ==> s == j.s
  {
    match j
    case JString(s) => s
    case _ => render(j)
  }

  /** `s[:n]`: at most the first `n` characters. */
  function Truncate(s: string, n: nat): (t: string)
    ensures |t| <= n && |t| <= |s|
    ensures t <= s
    ensures |s| <= n ==> t == s
    ensures |s| > n ==> t == s[..n]
  {
    if |s| <= n then s else s[..n]
  }

  /** The record stored in place of a response that reports an error. */
  function ErrorRecord(result: map<string, Json>, render: Json -> string): (e: map<string, Json>)
    requires "error" in result
    ensures e.Keys == {"error", "detail"}
    ensures e["error"] == result["error"]
    ensures e["detail"].JString? && |e["detail"].s| <= MaxDetail
    ensures "detail" !in result ==> e["detail"] == JString("")
    ensures "detail" in result ==>
      var full := Str(result["detail"], render);
      e["detail"].s <= full &&
      (|full| <= MaxDetail ==> e["detail"].s == full) &&
      (|full| > MaxDetail ==> e["detail"].s == full[..MaxDetail])
  {
    var detail := if "detail" in result then Str(result["detail"], render) else "";
    map["error" := result["error"], "detail" := JString(Truncate(detail, MaxDetail))]
  }

  /** Files `result` under `key` in the payload `data`. */
  function StoreResult(data: map<string, Json>, key: string, result: Option<map<string, Json>>,
                       render: Json -> string): (d: map<string, Json>)
    ensures result.None? ==> d == data
    ensures result.Some? ==> d.Keys == data.Keys + {key}
    ensures result.Some? && "error" !in result.value ==> d[key] == JObject(result.value)
    ensures result.Some? && "error" in result.value ==>
      d[key] == JObject(ErrorRecord(result.value, render))
    ensures forall k :: k in data && k != key ==> k in d && d[k] == data[k]
  {
    match result
    case None => data
    case Some(res) =>
      if "error" !in res then data[key := JObject(res)]
      else data[key := JObject(ErrorRecord(res, render))]
  }

  /** Storing never loses an entry: every earlier key is still present. */
  lemma StoreKeepsKeys(data: map<string, Json>, key: string, result: Option<map<string, Json>>,
                       render: Json -> string)
    ensures data.Keys <= StoreResult(data, key, result, render).Keys
  {
  }

  /**
    An error response is never stored verbatim: the stored record is
    recognisable as an error and its detail is at most 200 characters.
  */
  lemma ErrorsAreSummarised(data: map<string, Json>, key: string, result: map<string, Json>,
                            render: Json -> string)
    requires "error" in result
    ensures var d := StoreResult(data, key, Some(result), render);
      d[key].JObject? && "error" in d[key].fields &&
      d[key].fields.Keys == {"error", "detail"} &&
      |d[key].fields["detail"].s| <= MaxDetail
  {
  }
}

=== FILE: postgres_url.dfy ===
/**
  Normalisation of the database URL's driver prefix in the settings
  constructor (`Settings.__init__` in config.py): URLs for the `psycopg`
  driver or with no driver are rewritten to name `psycopg2`.
*/
module PostgresUrl {
  import opened Wrappers

  const PsycopgPrefix: string := "postgresql+psycopg://"
  const PlainPrefix: string := "postgresql://"
  const Psycopg2Prefix: string := "postgresql+psycopg2://"

  predicate StartsWith(s: string, prefix: string) {
    |prefix| <= |s| && s[..|prefix|] == prefix
  }

  predicate OccursAt(s: string, pat: string, i: nat) {
    i + |pat| <= |s| && s[i..i + |pat|] == pat
  }

  /** `str.find`: the position of the first occurrence of `pat` in `s`, if any. */
  function Find(s: string, pat: string, from: nat): (r: Option<nat>)
    requires from <= |s|
    ensures r.Some? ==> from <= r.value && OccursAt(s, pat, r.value)
    ensures r.Some? ==> forall i :: from <= i < r.value ==> !OccursAt(s, pat, i)
    ensures r.None? ==> forall i :: from <= i <= |s| ==> !OccursAt(s, pat, i)
    decreases |s| - from
  {
    if OccursAt(s, pat, from) then Some(from)
    else if from == |s| then None
    else Find(s, pat, from + 1)
  }

  /** `pat` occurs in `s` first at position `i`. */
  predicate FirstOccurrence(s: string, pat: string, i: nat) {
    OccursAt(s, pat, i) && forall k :: 0 <= k < i ==> !OccursAt(s, pat, k)
  }

  /** `s.replace(pat, repl, 1)`: replaces the first occurrence only. */
  function ReplaceFirst(s: string, pat: string, repl: string): (r: string)
    ensures forall i: nat :: FirstOccurrence(s, pat, i) ==> r == s[..i] + repl + s[i + |pat|..]
    ensures (forall i :: 0 <= i <= |s| ==> !OccursAt(s, pat, i)) ==> r == s
  {
    match Find(s, pat, 0)
    case None => s
    case Some(i) => s[..i] + repl + s[i + |pat|..]
  }

  /** `s.split(sep)[0]`: the text before the first occurrence of `sep`, or all of `s`. */
  function BeforeFirst(s: string, sep: string): (r: string)
    ensures forall i: nat :: FirstOccurrence(s, sep, i) ==> r == s[..i]
    ensures (forall i :: 0 <= i <= |s| ==> !OccursAt(s, sep, i)) ==> r == s
  {
    match Find(s, sep, 0)
    case None => s
    case Some(i) => s[..i]
  }

  /** The rewrite the settings constructor applies to `POSTGRES_URL`. */
  function Normalise(url: string): (r: string)
    ensures StartsWith(url, PsycopgPrefix) ==> r == Psycopg2Prefix + url[|PsycopgPrefix|..]
    ensures !StartsWith(url, PsycopgPrefix) && StartsWith(url, PlainPrefix) ==>
      r == Psycopg2Prefix + url[|PlainPrefix|..]
    ensures !StartsWith(url, PsycopgPrefix) && !StartsWith(url, PlainPrefix) ==> r == url
  {
    PlainSchemeHasNoPlus(url);
    if StartsWith(url, PsycopgPrefix) then
      assert OccursAt(url, PsycopgPrefix, 0);
      ReplaceFirst(url, PsycopgPrefix, Psycopg2Prefix)
    else if StartsWith(url, PlainPrefix) && '+' !in BeforeFirst(url, "//") then
      assert OccursAt(url, PlainPrefix, 0);
      ReplaceFirst(url, PlainPrefix, Psycopg2Prefix)
    else
      url
  }

  /**
    For a URL starting with `postgresql://`, the part before the first `//`
    is `postgresql:`, so the no-`+` test of the second branch always passes.
  */
  lemma PlainSchemeHasNoPlus(url: string)
    ensures StartsWith(url, PlainPrefix) ==> BeforeFirst(url, "//") == "postgresql:"
  {
    if StartsWith(url, PlainPrefix) {
      assert url[..13] == PlainPrefix;
      assert OccursAt(url, "//", 11) by {
        assert url[11..13] == PlainPrefix[11..13];
      }
      forall i | 0 <= i < 11
        ensures !OccursAt(url, "//", i)
      {
        assert url[i] == PlainPrefix[i];
      }
      var r := Find(url, "//", 0);
      assert r == Some(11);
      assert url[..11] == PlainPrefix[..11];
    }
  }

  /** A URL that already names `psycopg2` is left alone. */
  lemma Psycopg2Unchanged(url: string)
    requires StartsWith(url, Psycopg2Prefix)
    ensures Normalise(url) == url
  {
    assert url[18] == Psycopg2Prefix[18] == '2';
    assert url[..|PsycopgPrefix|][18] != PsycopgPrefix[18];
    assert url[10] == Psycopg2Prefix[10] == '+';
    assert url[..|PlainPrefix|][10] != PlainPrefix[10];
  }

  /** Normalising twice is the same as normalising once. */
  lemma NormaliseIdempotent(url: string)
    ensures Normalise(Normalise(url)) == Normalise(url)
  {
    var r := Normalise(url);
    if StartsWith(url, PsycopgPrefix) || StartsWith(url, PlainPrefix) {
      assert r[..|Psycopg2Prefix|] == Psycopg2Prefix;
      Psycopg2Unchanged(r);
    }
  }
}

=== FILE: product_kpis.dfy ===
/**
  The product KPI service (`ProductoService` in producto_service.py). The
  repository queries are inputs: each function receives what the
  corresponding repository call returns. Values are exact reals; the
  service's rounding to two decimals is not modelled.
*/
module ProductKpis {
  import opened Wrappers

  // ---- KPI 11: usage frequency ----

  datatype UsageFrequency = UsageFrequency(meanSessionsPerActiveUser: real, totalSessions: nat, activeUsers: nat)

  /** `frecuencia_uso`: sessions per active user; no active users reports all zeros. */
  function UsageFrequencyKpi(totalSessions: nat, activeUsers: nat): (r: UsageFrequency)
    ensures activeUsers == 0 ==> r == UsageFrequency(0.0, 0, 0)
    ensures activeUsers > 0 ==> r.totalSessions == totalSessions && r.activeUsers == activeUsers
    ensures activeUsers > 0 ==> r.meanSessionsPerActiveUser * (activeUsers as real) == totalSessions as real
  {
    if activeUsers == 0 then UsageFrequency(0.0, 0, 0)
    else UsageFrequency(totalSessions as real / activeUsers as real, totalSessions, activeUsers)
  }

  // ---- Percentage KPIs (18 and AI adoption) ----

  /** A percentage together with the two counts it was computed from. */
  datatype Share = Share(percent: real, part: nat, whole: nat)

  /** `100 * part / whole`, or all zeros when `whole` is 0. */
  function ShareOf(part: nat, whole: nat): (r: Share)
    ensures whole == 0 ==> r == Share(0.0, 0, 0)
    ensures whole > 0 ==> r.part == part && r.whole == whole
    ensures whole > 0 ==> r.percent * (whole as real) == 100.0 * (part as real)
    ensures whole > 0 && part <= whole ==> 0.0 <= r.percent <= 100.0
  {
    if whole == 0 then Share(0.0, 0, 0)
    else Share(100.0 * (part as real) / (whole as real), part, whole)
  }

  /** `porcentaje_usuarios_duplican_sesiones`: share of users with at least two sessions. */
  function DuplicatingUsersKpi(totalUsers: nat, duplicatingUsers: nat): (r: Share)
    ensures totalUsers == 0 ==> r == Share(0.0, 0, 0)
    ensures totalUsers > 0 ==> r.part == duplicatingUsers && r.whole == totalUsers
    ensures totalUsers > 0 ==> r.percent * (totalUsers as real) == 100.0 * (duplicatingUsers as real)
  {
    ShareOf(duplicatingUsers, totalUsers)
  }

  /** `adopcion_funcionalidades_ia`: share of sessions with at least one AI analysis. */
  function AiAdoptionKpi(totalSessions: nat, sessionsWithAi: nat): (r: Share)
    ensures totalSessions == 0 ==> r == Share(0.0, 0, 0)
    ensures totalSessions > 0 ==> r.part == sessionsWithAi && r.whole == totalSessions
    ensures totalSessions > 0 ==> r.percent * (totalSessions as real) == 100.0 * (sessionsWithAi as real)
  {
    ShareOf(sessionsWithAi, totalSessions)
  }

  // ---- KPI 16: exports ----

  datatype ExportCount = ExportCount(fileType: string, count: nat)
  datatype Exports = Exports(total: nat, byType: seq<ExportCount>)

  const NoType: string := "sin_tipo"

  /** `t or "sin_tipo"`: a missing or empty file type is reported as `sin_tipo`. */
  function TypeLabel(t: Option<string>): (name: string)
    ensures t.None? || t == Some("") ==> name == NoType
    ensures t.Some? && t.value != "" ==> name == t.value
  {
    match t
    case None => NoType
    case Some(s) => if s == "" then NoType else s
  }

  /** `exportaciones_generadas`: the total echoed, one entry per repository row in the same order. */
  function ExportsKpi(total: nat, byType: seq<(Option<string>, nat)>): (r: Exports)
    ensures r.total == total
    ensures |r.byType| == |byType|
    ensures forall i :: 0 <= i < |byType| ==>
      r.byType[i].count == byType[i].1 && r.byType[i].fileType == TypeLabel(byType[i].0)
  {
    Exports(total, seq(|byType|, i requires 0 <= i < |byType| => ExportCount(TypeLabel(byType[i].0), byType[i].1)))
  }

  // ---- KPI 19: mean session duration ----

  datatype SessionDuration = SessionDuration(seconds: Option<real>, minutes: Option<real>)

  /** `duracion_media_sesion`: seconds and minutes, or both unset when no session has ended. */
  function SessionDurationKpi(seconds: Option<real>): (r: SessionDuration)
    ensures seconds.None? <==> r.seconds.None?
    ensures seconds.None? ==> r.minutes.None?
    ensures seconds.Some? ==> r.seconds == seconds && r.minutes.Some? && r.minutes.value * 60.0 == seconds.value
  {
    match seconds
    case None => SessionDuration(None, None)
    case Some(s) => SessionDuration(Some(s), Some(s / 60.0))
  }

  // ---- AI analyses per engine ----

  /** The engines the report always lists, in this order. */
  const AiEngines: seq<string> := ["DualSense", "JAR", "Ranking", "Verbatim", "Drivers"]

  /** Some repository row is named `name`. */
  ghost predicate HasRow(rows: seq<(string, nat)>, name: string) {
    exists i :: 0 <= i < |rows| && rows[i].0 == name
  }

  /** `c` is the count of the last repository row named `name`. */
  ghost predicate LastCountIs(rows: seq<(string, nat)>, name: string, c: nat) {
    exists i :: 0 <= i < |rows| && rows[i].0 == name && rows[i].1 == c
      && forall j :: i < j < |rows| ==> rows[j].0 != name
  }

  /** Appending a row adds exactly its name to the names that have a row. */
  lemma {:induction false} HasRowAppend(rows: seq<(string, nat)>, name: string)
    requires |rows| > 0
    ensures HasRow(rows, name) <==> HasRow(rows[..|rows| - 1], name) || name == rows[|rows| - 1].0
  {
    var n := |rows| - 1;
    if HasRow(rows, name) && name != rows[n].0 {
      var i :| 0 <= i < |rows| && rows[i].0 == name;
      assert rows[..n][i] == rows[i];
    }
    if HasRow(rows[..n], name) {
      var i :| 0 <= i < n && rows[..n][i].0 == name;
      assert rows[i] == rows[..n][i];
    }
    if name == rows[n].0 {
      assert rows[n].0 == name;
    }
  }

  /** Appending a row for another name keeps a name's last count. */
  lemma {:induction false} LastCountAppend(rows: seq<(string, nat)>, name: string, c: nat)
    requires |rows| > 0 && rows[|rows| - 1].0 != name
    requires LastCountIs(rows[..|rows| - 1], name, c)
    ensures LastCountIs(rows, name, c)
  {
    var n := |rows| - 1;
    var i :| 0 <= i < n && rows[..n][i].0 == name && rows[..n][i].1 == c
      && forall j :: i < j < n ==> rows[..n][j].0 != name;
    assert rows[i] == rows[..n][i];
    forall j | i < j < |rows|
      ensures rows[j].0 != name
    {
      if j < n {
        assert rows[j] == rows[..n][j];
      }
    }
  }

  /** The dictionary comprehension over the repository rows: a later row for the same name wins. */
  function CountsByName(rows: seq<(string, nat)>): (m: map<string, nat>)
    ensures forall name :: name in m <==> HasRow(rows, name)
    ensures forall name :: name in m ==> LastCountIs(rows, name, m[name])
  {
    if |rows| == 0 then map[]
    else
      var n := |rows| - 1;
      var m := CountsByName(rows[..n]);
      var m' := m[rows[n].0 := rows[n].1];
      assert forall name :: name in m' <==> HasRow(rows, name) by {
        forall name
          ensures name in m' <==> HasRow(rows, name)
        {
          HasRowAppend(rows, name);
        }
      }
      assert forall name :: name in m' ==> LastCountIs(rows, name, m'[name]) by {
        forall name | name in m'
          ensures LastCountIs(rows, name, m'[name])
        {
          if name == rows[n].0 {
            assert rows[n].0 == name && rows[n].1 == m'[name];
          } else {
            LastCountAppend(rows, name, m[name]);
          }
        }
      }
      m'
  }

  datatype EngineTotal = EngineTotal(engine: string, total: nat)

  /**
    `analisis_ia_ejecutados`: exactly the five engines in their fixed order,
    each with its repository count, or 0 when the repository has no row for it.
  */
  function AiAnalysesKpi(rows: seq<(string, nat)>): (r: seq<EngineTotal>)
    ensures |r| == |AiEngines| == 5
    ensures forall i :: 0 <= i < 5 ==> r[i].engine == AiEngines[i]
    ensures forall i :: 0 <= i < 5 ==>
      if HasRow(rows, AiEngines[i])
      then LastCountIs(rows, AiEngines[i], r[i].total)
      else r[i].total == 0
    ensures forall e :: e in r ==> e.engine in AiEngines
  {
    var m := CountsByName(rows);
    seq(|AiEngines|, i requires 0 <= i < |AiEngines| =>
      EngineTotal(AiEngines[i], if AiEngines[i] in m then m[AiEngines[i]] else 0))
  }

  // ---- AI processing time per engine ----

  datatype ProcessingTime = ProcessingTime(engine: string, seconds: real, minutes: real)

  /** `tiempo_procesamiento_ia`: one entry per repository row, minutes derived from seconds. */
  function ProcessingTimeKpi(rows: seq<(string, real)>): (r: seq<ProcessingTime>)
    ensures |r| == |rows|
    ensures forall i :: 0 <= i < |rows| ==>
      r[i].engine == rows[i].0 && r[i].seconds == rows[i].1 && r[i].minutes * 60.0 == r[i].seconds
  {
    seq(|rows|, i requires 0 <= i < |rows| => ProcessingTime(rows[i].0, rows[i].1, rows[i].1 / 60.0))
  }

  // ---- Credit consumption per plan ----

  datatype PlanCredits = PlanCredits(plan: string, credits: int)
  datatype Credits = Credits(total: int, byPlan: seq<PlanCredits>)

  /**
    `consumo_muestras` and `consumo_credits_ia` (they differ only in the
    repository query): the total passes through, one entry per plan row in order.
  */
  function CreditsKpi(total: int, byPlan: seq<(string, int)>): (r: Credits)
    ensures r.total == total
    ensures |r.byPlan| == |byPlan|
    ensures forall i :: 0 <= i < |byPlan| ==> r.byPlan[i] == PlanCredits(byPlan[i].0, byPlan[i].1)
  {
    Credits(total, seq(|byPlan|, i requires 0 <= i < |byPlan| => PlanCredits(byPlan[i].0, byPlan[i].1)))
  }
}

=== FILE: stat_tests.dfy ===
/**
  The significance-test stage (`StatTest` and `Stats` in stats.py): which
  test a question gets, and how each test shapes the cleaned table before
  handing it to the numerical library. The numerical procedures themselves
  (OLS/ANOVA, paired t-test with Holm correction, chi-square survival
  function, Friedman) are an abstract `pvalue` function: it returns `None`
  where the library raises and the test's bare `except` records `None`.
*/
module StatTests {
  import opened Wrappers
  import opened SurveyTable

  datatype StatTest = Anova | TTest | ChiSquare | Friedman

  /** Stat-test dispatch on question type and number of code samples; type 2 and unknown types get none. */
  function SelectStatTest(q: Question, codeSamples: seq<CodeSample>): (t: Option<StatTest>)
    ensures t == Some(Anova) <==> q.qtype == 1 && |codeSamples| > 2
    ensures t == Some(TTest) <==> q.qtype == 1 && |codeSamples| <= 2
    ensures t == Some(ChiSquare) <==> q.qtype == 3 || (q.qtype == 4 && |codeSamples| < 2)
    ensures t == Some(Friedman) <==> q.qtype == 4 && |codeSamples| >= 2
    ensures t.None? <==> q.qtype != 1 && q.qtype != 3 && q.qtype != 4
  {
    if q.qtype == 1 then (if |codeSamples| > 2 then Some(Anova) else Some(TTest))
    else if q.qtype == 3 then Some(ChiSquare)
    else if q.qtype == 4 then (if |codeSamples| < 2 then Some(ChiSquare) else Some(Friedman))
    else None
  }

  /** A `Stats` object: p-values start unset; the test is fixed at construction. */
  datatype Stats = Stats(
    question: Question,
    attributeId: Option<int>,
    pValue: Option<real>,
    pValueName: Option<real>,
    test: Option<StatTest>,
    codeSamples: seq<CodeSample>)

  /** The constructor: an explicitly given test wins, otherwise the dispatch chooses. */
  function NewStats(q: Question, attributeId: Option<int>, codeSamples: seq<CodeSample>,
                    given: Option<StatTest>): (s: Stats)
    ensures s.question == q && s.attributeId == attributeId && s.codeSamples == codeSamples
    ensures s.pValue.None? && s.pValueName.None?
    ensures given.Some? ==> s.test == given
    ensures given.None? ==> s.test == SelectStatTest(q, codeSamples)
    ensures given.None? ==> (s.test.None? <==> q.qtype != 1 && q.qtype != 3 && q.qtype != 4)
  {
    Stats(q, attributeId, None, None, if given.Some? then given else SelectStatTest(q, codeSamples), codeSamples)
  }

  /** The data a numerical procedure receives. */
  datatype NumericCall =
    | PairedOrders(first: seq<int>, second: seq<int>)          // ttest_rel on placeholder_order
    | PairedNames(firstNames: seq<string>, secondNames: seq<string>) // ttest_rel on placeholder_name
    | GoodnessOfFit(observed: seq<int>)                       // chi-square against the mean
    | FriedmanRanks(rows: seq<OrderRow>)                       // pivot, dropna, friedmanchisquare

  // ---- Data shaping ----

  /** The mask `clean_data["code_sample_id"] == cs`. */
  function InSample(cs: int): PlaceholderRow -> bool {
    (r: PlaceholderRow) => r.codeSampleId == cs
  }

  function SameRow(r: PlaceholderRow): PlaceholderRow {
    r
  }

  /**
    The rows of one code sample, in table order
    (`clean_data[clean_data["code_sample_id"] == cs]`): exactly the rows at the
    positions the mask keeps, which is what lets the paired test line the two
    samples up row by row.
  */
  function RowsOfSample(rows: seq<PlaceholderRow>, cs: int): (r: seq<PlaceholderRow>)
    ensures |r| == |KeptIndices(rows, InSample(cs))|
    ensures forall j :: 0 <= j < |r| ==> r[j] == rows[KeptIndices(rows, InSample(cs))[j]]
    ensures forall j :: 0 <= j < |r| ==> r[j].codeSampleId == cs
    ensures |r| == multiset(PlaceholderTable(rows).CodeSampleIds())[cs]
  {
    SampleSizeIsCount(rows, cs);
    Select(rows, InSample(cs), SameRow)
  }

  /** The mask keeps as many rows as the code sample occurs in the column. */
  lemma {:induction false} SampleSizeIsCount(rows: seq<PlaceholderRow>, cs: int)
    ensures |KeptIndices(rows, InSample(cs))| == multiset(PlaceholderTable(rows).CodeSampleIds())[cs]
  {
    if |rows| > 0 {
      var n := |rows| - 1;
      SampleSizeIsCount(rows[..n], cs);
      SampleColumnAppend(rows);
      KeptIndicesAppend(rows, InSample(cs));
      assert InSample(cs)(rows[n]) <==> rows[n].codeSampleId == cs;
    }
  }

  /** The sample column of a table with one more row is the old column plus that row's sample. */
  lemma SampleColumnAppend(rows: seq<PlaceholderRow>)
    requires |rows| > 0
    ensures PlaceholderTable(rows).CodeSampleIds()
      == PlaceholderTable(rows[..|rows| - 1]).CodeSampleIds() + [rows[|rows| - 1].codeSampleId]
  {
    var n := |rows| - 1;
    var col := PlaceholderTable(rows).CodeSampleIds();
    var prev := PlaceholderTable(rows[..n]).CodeSampleIds();
    forall k | 0 <= k < n
      ensures col[k] == prev[k]
    {
      assert rows[..n][k] == rows[k];
    }
  }

  /** `order == 0`: a first-choice row. Text `"0"` is not equal to the integer 0 in Python. */
  predicate IsFirstChoice(r: OrderRow)
    ensures IsFirstChoice(r) <==> r.order == Number(0) || r.order == Flag(false)
  {
    Numeric(r.order) == Some(0)
  }

  function CodeSampleOf(r: OrderRow): int {
    r.codeSampleId
  }

  /** The `code_sample_id` column of the first-choice rows, in table order. */
  function FirstChoiceSamples(rows: seq<OrderRow>): (col: seq<int>)
    ensures |col| == |KeptIndices(rows, IsFirstChoice)|
    ensures forall j :: 0 <= j < |col| ==>
      var r := rows[KeptIndices(rows, IsFirstChoice)[j]];
      (r.order == Number(0) || r.order == Flag(false)) && col[j] == r.codeSampleId
  {
    Select(rows, IsFirstChoice, CodeSampleOf)
  }

  // ---- The four tests ----

  /**
    `TTest`: compares the first two distinct code samples (in order of first
    appearance); with fewer than two the Stats object is left untouched.
    On a table without the ranking columns the library call raises inside
    the `try`, so both p-values become `None`.
  */
  function RunTTest(stats: Stats, t: Table, pvalue: NumericCall -> Option<real>): (r: Stats)
    ensures |Unique(t.CodeSampleIds())| < 2 ==> r == stats
    ensures |Unique(t.CodeSampleIds())| >= 2 && !t.PlaceholderTable? ==>
      r == stats.(pValue := None, pValueName := None)
    ensures |Unique(t.CodeSampleIds())| >= 2 && t.PlaceholderTable? ==>
      var u := Unique(t.CodeSampleIds());
      var a := RowsOfSample(t.placeholderRows, u[0]);
      var b := RowsOfSample(t.placeholderRows, u[1]);
      && u[0] != u[1]
      && r == stats.(pValue := pvalue(PairedOrders(PlaceholderOrders(a), PlaceholderOrders(b))),
                     pValueName := pvalue(PairedNames(PlaceholderNames(a), PlaceholderNames(b))))
  {
    var u := Unique(t.CodeSampleIds());
    if |u| < 2 then stats
    else
      match t
      case PlaceholderTable(rows) =>
        var a := RowsOfSample(rows, u[0]);
        var b := RowsOfSample(rows, u[1]);
        stats.(pValue := pvalue(PairedOrders(PlaceholderOrders(a), PlaceholderOrders(b))),
               pValueName := pvalue(PairedNames(PlaceholderNames(a), PlaceholderNames(b))))
      case _ => stats.(pValue := None, pValueName := None)
  }

  /**
    `ChiSquare`: the column under test is `attribute_id` or `code_sample_id`
    for type 3, and `code_sample_id` of the first-choice rows for type 4.
    Reading a missing column happens outside the `try` and raises; for any
    other question type the column is never bound and the `try` records `None`.
  */
  function RunChiSquare(stats: Stats, t: Table, pvalue: NumericCall -> Option<real>): (r: Result<Stats, Error>)
    ensures r.Success? ==> r.value == stats.(pValue := r.value.pValue)
    ensures stats.question.qtype == 3 && |stats.question.attributes| != 0 ==>
      if t.AttributeTable? then
        r == Success(stats.(pValue := pvalue(GoodnessOfFit(AttributeIds(t.attributeRows)))))
      else r == Failure(MissingColumn("attribute_id"))
    ensures stats.question.qtype == 3 && |stats.question.attributes| == 0 ==>
      r == Success(stats.(pValue := pvalue(GoodnessOfFit(t.CodeSampleIds()))))
    ensures stats.question.qtype == 4 ==>
      if t.OrderTable? then r == Success(stats.(pValue := pvalue(GoodnessOfFit(FirstChoiceSamples(t.orderRows)))))
      else r == Failure(MissingColumn("order"))
    ensures stats.question.qtype != 3 && stats.question.qtype != 4 ==> r == Success(stats.(pValue := None))
  {
    var q := stats.question;
    if q.qtype == 3 then
      if |q.attributes| != 0 then
        match t
        case AttributeTable(rows) =>
          Success(stats.(pValue := pvalue(GoodnessOfFit(AttributeIds(rows)))))
        case _ => Failure(MissingColumn("attribute_id"))
      else Success(stats.(pValue := pvalue(GoodnessOfFit(t.CodeSampleIds()))))
    else if q.qtype == 4 then
      match t
      case OrderTable(rows) => Success(stats.(pValue := pvalue(GoodnessOfFit(FirstChoiceSamples(rows)))))
      case _ => Failure(MissingColumn("order"))
    else Success(stats.(pValue := None))
  }

  /**
    `Anova`: records the first `attribute_id` of the table outside the `try`,
    so a table without that column raises and an empty one raises too. The
    cleaned table that carries `attribute_id` has no `placeholder_order` or
    `placeholder_name` column, so both model fits fail and record `None`.
  */
  function RunAnova(stats: Stats, t: Table): (r: Result<Stats, Error>)
    ensures !t.AttributeTable? ==> r == Failure(MissingColumn("attribute_id"))
    ensures t.AttributeTable? ==> (r.Failure? <==> t.Size() == 0)
    ensures t.AttributeTable? && t.Size() == 0 ==> r == Failure(EmptyTable)
    ensures r.Success? ==>
      r.value == stats.(attributeId := Some(t.attributeRows[0].attributeId), pValue := None, pValueName := None)
  {
    match t
    case AttributeTable(rows) =>
      if |rows| == 0 then Failure(EmptyTable)
      else Success(stats.(attributeId := Some(rows[0].attributeId), pValue := None, pValueName := None))
    case _ => Failure(MissingColumn("attribute_id"))
  }

  /** `Friedman`: pivots the `order` column; a table without it fails inside the `try` and records `None`. */
  function RunFriedman(stats: Stats, t: Table, pvalue: NumericCall -> Option<real>): (r: Stats)
    ensures t.OrderTable? ==> r == stats.(pValue := pvalue(FriedmanRanks(t.orderRows)))
    ensures !t.OrderTable? ==> r == stats.(pValue := None)
  {
    match t
    case OrderTable(rows) => stats.(pValue := pvalue(FriedmanRanks(rows)))
    case _ => stats.(pValue := None)
  }

  /** `execute_test`: run the chosen test; with no test it silently does nothing. */
  function ExecuteTest(stats: Stats, t: Table, pvalue: NumericCall -> Option<real>): (r: Result<Stats, Error>)
    ensures stats.test.None? ==> r == Success(stats)
    ensures r.Success? ==>
      r.value.question == stats.question && r.value.test == stats.test && r.value.codeSamples == stats.codeSamples
    ensures stats.test == Some(TTest) ==> r == Success(RunTTest(stats, t, pvalue))
    ensures stats.test == Some(ChiSquare) ==> r == RunChiSquare(stats, t, pvalue)
    ensures stats.test == Some(Anova) ==> r == RunAnova(stats, t)
    ensures stats.test == Some(Friedman) ==> r == Success(RunFriedman(stats, t, pvalue))
  {
    match stats.test
    case None => Success(stats)
    case Some(TTest) => Success(RunTTest(stats, t, pvalue))
    case Some(ChiSquare) => RunChiSquare(stats, t, pvalue)
    case Some(Anova) => RunAnova(stats, t)
    case Some(Friedman) => Success(RunFriedman(stats, t, pvalue))
  }

  /** With fewer than two distinct code samples in the table, a t-test leaves the p-values unset. */
  lemma TTestNeedsTwoSamples(q: Question, attributeId: Option<int>, codeSamples: seq<CodeSample>,
                             t: Table, pvalue: NumericCall -> Option<real>)
    requires q.qtype == 1 && |codeSamples| <= 2
    requires |set c | c in t.CodeSampleIds()| < 2
    ensures var r := ExecuteTest(NewStats(q, attributeId, codeSamples, None), t, pvalue);
      r.Success? && r.value.pValue.None? && r.value.pValueName.None?
  {
    DistinctLength(Unique(t.CodeSampleIds()));
    assert (set c | c in Unique(t.CodeSampleIds())) == (set c | c in t.CodeSampleIds());
  }

  /**
    A type-4 question with fewer than two code samples is tested by chi-square
    on the code samples of the first-choice rows only: rows with any other
    order do not influence the p-value.
  */
  lemma Type4ChiSquareIgnoresLaterChoices(q: Question, codeSamples: seq<CodeSample>, rows: seq<OrderRow>,
                                          extra: OrderRow, pvalue: NumericCall -> Option<real>)
    requires q.qtype == 4 && |codeSamples| < 2
    requires !IsFirstChoice(extra)
    ensures var s := NewStats(q, None, codeSamples, None);
      ExecuteTest(s, OrderTable(rows + [extra]), pvalue) == ExecuteTest(s, OrderTable(rows), pvalue)
  {
    assert (rows + [extra])[..|rows|] == rows;
  }
}

=== FILE: survey_table.dfy ===
/**
  The data the statistics pipeline works on: raw answer records, the cleaned
  tables (one schema per cleaning strategy), the failures the pipeline can
  raise, and the counting helpers every strategy shares.
*/
module SurveyTable {
  import opened Wrappers

  /** User identifiers are UUIDs in the system; only their equality matters here. */
  type UserId = int

  /** The dynamically typed `value` of a raw answer. Floats are not modelled. */
  datatype Value = Flag(b: bool) | Number(n: int) | Text(s: string) | Null

  /** Python truthiness of an answer value (`if answer.value:`). */
  predicate Truthy(v: Value)
    ensures !Truthy(v) <==> v in {Flag(false), Number(0), Text(""), Null}
  {
    match v
    case Flag(b) => b
    case Number(n) => n != 0
    case Text(s) => |s| > 0
    case Null => false
  }

  /**
    The integer a value stands for when pandas treats it as a number.
    Booleans count as 0 and 1, as Python's `True == 1` makes them do
    both as dictionary keys and in arithmetic; text and `None` are not numbers.
  */
  function Numeric(v: Value): (r: Option<int>)
    ensures r.Some? <==> v.Number? || v.Flag?
    ensures v.Number? ==> r == Some(v.n)
    ensures v.Flag? ==> r == Some(if v.b then 1 else 0)
  {
    match v
    case Flag(b) => Some(if b then 1 else 0)
    case Number(n) => Some(n)
    case _ => None
  }

  /** A float result that may be `NaN` (the mean of an empty column). */
  datatype Float = Finite(r: real) | NaN

  /** A placeholder of an attribute; `name` is its name already translated into the request language. */
  datatype Placeholder = Placeholder(id: int, order: int, name: string)

  datatype Attribute = Attribute(id: int, placeholders: seq<Placeholder>)

  datatype CodeSample = CodeSample(id: int)

  /** The fields of a question the pipeline dispatches on. */
  datatype Question = Question(qtype: int, attributes: seq<Attribute>)

  /** One raw answer record; which fields are meaningful depends on the question type. */
  datatype Answer = Answer(
    userId: UserId,
    codeSampleId: int,
    placeholderId: int,
    placeholder: Placeholder,
    attributeId: int,
    value: Value)

  // Row schemas of the cleaned tables, one per cleaning strategy.
  datatype PlaceholderRow = PlaceholderRow(
    userId: UserId, placeholderId: int, placeholderOrder: int, placeholderName: string, codeSampleId: int)
  datatype TextRow = TextRow(userId: UserId, value: Value, codeSampleId: int)
  datatype AttributeRow = AttributeRow(userId: UserId, attributeId: int, codeSampleId: int)
  datatype SampleRow = SampleRow(userId: UserId, codeSampleId: int)
  datatype OrderRow = OrderRow(userId: UserId, codeSampleId: int, order: Value)

  /**
    A cleaned table. Its constructor fixes the column set; every schema has
    the `user_id` and `code_sample_id` columns.
  */
  datatype Table =
    | PlaceholderTable(placeholderRows: seq<PlaceholderRow>)
    | TextTable(textRows: seq<TextRow>)
    | AttributeTable(attributeRows: seq<AttributeRow>)
    | SampleTable(sampleRows: seq<SampleRow>)
    | OrderTable(orderRows: seq<OrderRow>)
  {
    function Size(): nat {
      match this
      case PlaceholderTable(rows) => |rows|
      case TextTable(rows) => |rows|
      case AttributeTable(rows) => |rows|
      case SampleTable(rows) => |rows|
      case OrderTable(rows) => |rows|
    }

    /** The `user_id` column. */
    function UserIds(): (col: seq<UserId>)
      ensures |col| == Size()
    {
      match this
      case PlaceholderTable(rows) => seq(|rows|, i requires 0 <= i < |rows| => rows[i].userId)
      case TextTable(rows) => seq(|rows|, i requires 0 <= i < |rows| => rows[i].userId)
      case AttributeTable(rows) => seq(|rows|, i requires 0 <= i < |rows| => rows[i].userId)
      case SampleTable(rows) => seq(|rows|, i requires 0 <= i < |rows| => rows[i].userId)
      case OrderTable(rows) => seq(|rows|, i requires 0 <= i < |rows| => rows[i].userId)
    }

    /** The `code_sample_id` column. */
    function CodeSampleIds(): (col: seq<int>)
      ensures |col| == Size()
    {
      match this
      case PlaceholderTable(rows) => seq(|rows|, i requires 0 <= i < |rows| => rows[i].codeSampleId)
      case TextTable(rows) => seq(|rows|, i requires 0 <= i < |rows| => rows[i].codeSampleId)
      case AttributeTable(rows) => seq(|rows|, i requires 0 <= i < |rows| => rows[i].codeSampleId)
      case SampleTable(rows) => seq(|rows|, i requires 0 <= i < |rows| => rows[i].codeSampleId)
      case OrderTable(rows) => seq(|rows|, i requires 0 <= i < |rows| => rows[i].codeSampleId)
    }
  }

  // ---- Columns specific to one schema ----

  function PlaceholderIds(rows: seq<PlaceholderRow>): (col: seq<int>)
    ensures |col| == |rows| && forall i :: 0 <= i < |rows| ==> col[i] == rows[i].placeholderId
  {
    seq(|rows|, i requires 0 <= i < |rows| => rows[i].placeholderId)
  }

  function PlaceholderOrders(rows: seq<PlaceholderRow>): (col: seq<int>)
    ensures |col| == |rows| && forall i :: 0 <= i < |rows| ==> col[i] == rows[i].placeholderOrder
  {
    seq(|rows|, i requires 0 <= i < |rows| => rows[i].placeholderOrder)
  }

  function PlaceholderNames(rows: seq<PlaceholderRow>): (col: seq<string>)
    ensures |col| == |rows| && forall i :: 0 <= i < |rows| ==> col[i] == rows[i].placeholderName
  {
    seq(|rows|, i requires 0 <= i < |rows| => rows[i].placeholderName)
  }

  function AttributeIds(rows: seq<AttributeRow>): (col: seq<int>)
    ensures |col| == |rows| && forall i :: 0 <= i < |rows| ==> col[i] == rows[i].attributeId
  {
    seq(|rows|, i requires 0 <= i < |rows| => rows[i].attributeId)
  }

  /** The exceptions the pipeline raises. */
  datatype Error =
    | NotSet(message: string)       // ValueError raised by an `execute_*` entry point with no strategy
    | MissingColumn(column: string) // KeyError: the table has no such column
    | MissingArgument(name: string) // AttributeError: an optional argument was left as None
    | ZeroDivision                  // ZeroDivisionError
    | EmptyTable                    // IndexError: positional access into an empty column
    | NotNumeric                    // ValueError: a column could not be converted to numbers

  /** Number of occurrences of `x` in `xs`: the length of the rows a pandas mask `col == x` keeps. */
  function CountOf<T(==)>(xs: seq<T>, x: T): (n: nat)
    ensures n == multiset(xs)[x]
    ensures n <= |xs|
  {
    if |xs| == 0 then 0
    else
      assert xs == xs[..|xs| - 1] + [xs[|xs| - 1]];
      CountOf(xs[..|xs| - 1], x) + (if xs[|xs| - 1] == x then 1 else 0)
  }

  /** No value occurs twice. */
  predicate Distinct(u: seq<int>) {
    forall i, j :: 0 <= i < j < |u| ==> u[i] != u[j]
  }

  /** The position of the first occurrence of `x` in `xs`. */
  function FirstIndex(xs: seq<int>, x: int): (k: nat)
    requires x in xs
    ensures k < |xs| && xs[k] == x
    ensures forall i :: 0 <= i < k ==> xs[i] != x
  {
    if xs[0] == x then 0 else 1 + FirstIndex(xs[1..], x)
  }

  /** Extending a sequence does not move the first occurrence of a value it already holds. */
  lemma FirstIndexOfPrefix(xs: seq<int>, n: nat, x: int)
    requires n <= |xs| && x in xs[..n]
    ensures FirstIndex(xs, x) == FirstIndex(xs[..n], x)
  {
    var k := FirstIndex(xs[..n], x);
    assert xs[k] == x;
    assert forall i :: 0 <= i < k ==> xs[i] == xs[..n][i];
  }

  /** The distinct elements of `xs` in order of first appearance, like pandas' `unique()`. */
  function Unique(xs: seq<int>): (u: seq<int>)
    ensures forall x :: x in u <==> x in xs
    ensures Distinct(u)
    ensures forall i, j :: 0 <= i < j < |u| ==> FirstIndex(xs, u[i]) < FirstIndex(xs, u[j])
    ensures |u| <= |xs|
    ensures |xs| > 0 ==> |u| > 0 && u[0] == xs[0]
  {
    if |xs| == 0 then []
    else
      var n := |xs| - 1;
      var p := xs[..n];
      var u := Unique(p);
      assert forall x :: x in xs <==> x in p || x == xs[n] by {
        assert xs == p + [xs[n]];
      }
      forall i | 0 <= i < |u|
        ensures FirstIndex(xs, u[i]) == FirstIndex(p, u[i]) < n
      {
        FirstIndexOfPrefix(xs, n, u[i]);
      }
      if xs[n] in u then u
      else
        assert FirstIndex(xs, xs[n]) == n;
        u + [xs[n]]
  }

  /** A sequence without repetitions has as many distinct elements as it is long. */
  lemma {:induction false} DistinctLength(u: seq<int>)
    requires Distinct(u)
    ensures |set x | x in u| == |u|
  {
    if |u| > 0 {
      var p := u[..|u| - 1];
      DistinctLength(p);
      assert u == p + [u[|u| - 1]];
      assert u[|u| - 1] !in p;
      assert (set x | x in u) == (set x | x in p) + {u[|u| - 1]};
    }
  }

  /** pandas' `nunique()`: the number of distinct values of a column. */
  function DistinctCount(xs: seq<int>): (n: nat)
    ensures n == |set x | x in xs|
    ensures n <= |xs|
    ensures |xs| > 0 ==> n > 0
  {
    var u := Unique(xs);
    DistinctLength(u);
    assert (set x | x in u) == (set x | x in xs);
    |u|
  }

  /**
    Positions of the elements that satisfy `keep`, increasing: the rows a
    pandas boolean mask (or a filtering loop) keeps.
  */
  function KeptIndices<T>(xs: seq<T>, keep: T -> bool): (idx: seq<nat>)
    ensures forall j :: 0 <= j < |idx| ==> idx[j] < |xs| && keep(xs[idx[j]])
    ensures forall j, k :: 0 <= j < k < |idx| ==> idx[j] < idx[k]
    ensures forall i :: 0 <= i < |xs| && keep(xs[i]) ==> i in idx
  {
    if |xs| == 0 then []
    else
      var n := |xs| - 1;
      var p := xs[..n];
      var idx := KeptIndices(p, keep);
      assert forall j :: 0 <= j < |idx| ==> xs[idx[j]] == p[idx[j]];
      if keep(xs[n]) then idx + [n] else idx
  }

  /** One more element adds one kept position exactly when it satisfies `keep`. */
  lemma KeptIndicesAppend<T>(xs: seq<T>, keep: T -> bool)
    requires |xs| > 0
    ensures |KeptIndices(xs, keep)| == |KeptIndices(xs[..|xs| - 1], keep)| + (if keep(xs[|xs| - 1]) then 1 else 0)
  {
  }

  /** As many positions are kept as there are elements satisfying `keep` (the set `s` of their positions). */
  lemma KeptIndicesCount<T>(xs: seq<T>, keep: T -> bool, s: set<int>)
    requires forall i :: i in s <==> 0 <= i < |xs| && keep(xs[i])
    ensures |KeptIndices(xs, keep)| == |s|
  {
    var kept := KeptIndices(xs, keep);
    var idx: seq<int> := kept;
    DistinctLength(idx);
    forall x | x in idx
      ensures x in s
    {
      var j :| 0 <= j < |kept| && kept[j] == x;
    }
    forall x | x in s
      ensures x in idx
    {
      assert x in kept;
    }
    assert (set x | x in idx) == s;
  }

  /**
    A filtering loop: the elements satisfying `keep`, in their original
    order, each turned into a row by `row`.
  */
  function Select<T, R>(xs: seq<T>, keep: T -> bool, row: T -> R): (rows: seq<R>)
    ensures |rows| == |KeptIndices(xs, keep)|
    ensures forall j :: 0 <= j < |rows| ==> rows[j] == row(xs[KeptIndices(xs, keep)[j]])
  {
    if |xs| == 0 then []
    else
      var n := |xs| - 1;
      var p := xs[..n];
      var rows := Select(p, keep, row);
      var idx := KeptIndices(p, keep);
      assert forall j :: 0 <= j < |idx| ==> p[idx[j]] == xs[idx[j]];
      if keep(xs[n]) then rows + [row(xs[n])] else rows
  }

  function Sum(xs: seq<int>): int {
    if |xs| == 0 then 0 else Sum(xs[..|xs| - 1]) + xs[|xs| - 1]
  }

  function SumReal(xs: seq<real>): real {
    if |xs| == 0 then 0.0 else SumReal(xs[..|xs| - 1]) + xs[|xs| - 1]
  }

  /** pandas' `mean()` of an integer column: `NaN` when the column is empty. */
  function Mean(xs: seq<int>): (m: Float)
    ensures m.Finite? <==> |xs| > 0
    ensures m.Finite? ==> m.r * (|xs| as real) == Sum(xs) as real
  {
    if |xs| == 0 then NaN else Finite(Sum(xs) as real / |xs| as real)
  }

  /** pandas' `mean()` of a float column: `NaN` when the column is empty. */
  function MeanReal(xs: seq<real>): (m: Float)
    ensures m.Finite? <==> |xs| > 0
    ensures m.Finite? ==> m.r * (|xs| as real) == SumReal(xs)
  {
    if |xs| == 0 then NaN else Finite(SumReal(xs) / |xs| as real)
  }

  /** `p` is `n` out of `d`, expressed as a percentage: `p * d == 100 * n`. */
  predicate IsPercent(p: real, n: nat, d: nat) {
    p * (d as real) == 100.0 * (n as real)
  }

  /** `100 * n / d` as a Python float division; `d == 0` raises ZeroDivisionError. */
  function Percent(n: nat, d: nat): (r: Result<real, Error>)
    ensures r.Failure? <==> d == 0
    ensures r.Failure? ==> r.error == ZeroDivision
    ensures r.Success? ==> IsPercent(r.value, n, d)
    ensures r.Success? && n <= d ==> 0.0 <= r.value <= 100.0
  {
    if d == 0 then Failure(ZeroDivision) else Success((n as real / d as real) * 100.0)
  }
}

=== FILE: wrappers.dfy ===
/** Failure-compatible wrappers shared by every module of the model. */
module Wrappers {

  /** Python's `None` versus a present value. */
  datatype Option<+T> = None | Some(value: T)

  /** A computation that either produces a value or raises an exception. */
  datatype Result<+R, +E> = Success(value: R) | Failure(error: E) {
    predicate IsFailure() {
      Failure?
    }

    function PropagateFailure<U>(): Result<U, E>
      requires Failure?
    {
      Failure(error)
    }

    function Extract(): R
      requires Success?
    {
      value
    }
  }
}
